=== FILE: README.md ===
# eirods-dav core logic in Dafny

A model of the decision and string logic in eirods-dav, the Apache/iRODS WebDAV module with themed listings and Frictionless Data packages, and of its browser helper script. The model is functional. Each C routine becomes a pure function over immutable values: `seq<char>` strings, `Option` for C's `NULL`, and a map for an APR table. Every iRODS or APR call the routines make becomes either an input (an outcome, a list of catalogue entries) or a function parameter (`get_basename`, `ap_escape_html`, `ap_escape_uri`, `encodeURIComponent`).

Modules:

- `Wrappers`: `Option`.
- `Readings`: which reading an operation follows where the code and its evident intent part ways.
- `Text`: the C string helpers the code relies on.
  - ASCII character classes.
  - `strcasecmp`.
  - Prefix and suffix tests and `strrchr`.
  - `apr_strtok` as `Tokens`, with `Join` as its inverse.
- `AprTable`: an `apr_table_t`. APR compares table keys without regard to case, so the map is keyed by the lower-cased key.
- `Irods`: the catalogue records the code reads.
  - `collEnt_t` as `CollEntry`.
  - `IrodsMetadata`, from `meta.h`.
- `Theme`: `theme.c`.
  - The metadata comparator and the sort.
  - The metadata list HTML, and a parser proving that the HTML gives the sorted list back.
  - Icon choice.
  - The cells of a listing row and the table header.
- `Listing`: `listing.c`, the `IRodsObject` accessors.
- `DataPackage`: `frictionless_data_package.c`.
  - Request recognition.
  - Composite metadata keys.
  - Authors.
  - Package `name` normalisation.
  - Relative paths.
  - The resource list.
- `Config`: `config.c`.
  - Directory configuration creation and merge.
  - The directive validators.
- `Auth`: `auth.c`.
  - `rods_login` as a trace of iRODS calls with their SSL state.
  - `GetIRodsConnection2` as a step of a per-client cache state machine.
- `Client`: `client/scripts/eirods-dav.js`.
  - The jQuery id escaper.
  - The REST URL shapes.
  - The autocomplete list state.

Where the C code and the behaviour its own comments and messages describe part ways, the operation takes a `Reading`. `AsWritten` follows the code. `Intended` follows the evident intent. Lemmas state where the two differ. The four places are listed under "## Findings": the package name, the resource name, the buffer-size check, and the icon cell of a listing row. The connection cache keeps a flag for the same purpose.

Where the code and the project's written description disagree, the model follows the code:

- An empty autocomplete answer does not hide the list (`eirods-dav.js:579-603`). `Client.PopulateAutoCompleteList` keeps the visibility unchanged in that case.
- `theme.h` is stale: `frictionless_data_package.c` reads `ht_fd_*` keys that the header does not declare. `Theme.HtmlTheme` holds those keys. The metadata switch is spelt two ways in the `.c` files; `Theme.HtmlTheme` has one field for both; "## Left out" states the assumption.

## Model

| member | source | states |
|---|---|---|
| Theme.CompareMetadataMeaning | theme.c:465-479 | metadata order is case-insensitive key order, ties broken by case-insensitive value order; equal exactly when both compare equal |
| Theme.CompareMetadataAntisymmetric | theme.c:465-479 | swapping the arguments negates the comparison |
| Theme.CompareMetadataTransitive | theme.c:465-479 | the comparator is transitive, so it is a valid qsort order |
| Theme.SortMetadata | theme.c:400-422 | the array handed to PrintMetadata is a permutation of the fetched metadata, non-decreasing under the comparator |
| Theme.InsertSorted | theme.c:406-422 | inserting into a sorted list adds exactly one element and keeps it sorted |
| Theme.PrintMetadataRoundTrip | theme.c:436-462 | the `<ul class="metadata">` fragment, with a units span only when units are present, parses back to exactly the printed entries in order |
| Theme.SortedRoundTrip | theme.c:392-433 | the fragment printed for fetched metadata reads back as a sorted permutation of it |
| Theme.MetadataCell | theme.c:392-433 | the output is always wrapped in the metadata cell; status 0 iff the fetched array is non-empty, otherwise -1 with an empty cell; a full cell holds a sorted permutation of the metadata |
| Theme.IconKey | theme.c:515-534 | a data object's key exists iff its name has a '.', and is the name's suffix from its last '.'; a collection's key is its base name; other types have none |
| Theme.GetIcon | theme.c:515-561 | with an icon map, a hit on the key wins; a miss, or no key, falls back to the per-type default; no map means the default; other types get none |
| Theme.NoIconsWithoutColumn | theme.c:482-485 | when no icon setting is configured, no icon is ever chosen |
| Theme.IconNeedsColumn | theme.c:176-181 | a row only ever gets an icon when the header shows the icon column |
| Theme.IconLookupIgnoresCase | theme.c:515-561 | two names whose extensions differ only in case get the same icon |
| Theme.ItemLink | theme.c:284-318 | collections link to and show their escaped basename with a trailing "/"; data objects link to their escaped name without one |
| Theme.NameCells | theme.c:301-318 | as written, a named entry gets an icon cell only when it has an icon, then its name cell; as intended, the icon cell is there (empty if need be) exactly when the header shows the icon column |
| Theme.TrailingCells | theme.c:321-379 | after the name come the size, owner and date cells, then the metadata cell when metadata is shown |
| Theme.RowCells | theme.c:283-382 | a row's columns are its name cells' columns followed by size, owner, date and, if shown, metadata |
| Theme.PrintItem | theme.c:275-382 | every listing row is one `<tr>` element holding exactly the row's cells in order |
| Theme.Header | theme.c:146-198 | parent link iff the relative URI is not "/"; table class defaults to "listing"; icon column iff icons are displayed; metadata column iff metadata display is on |
| Theme.HeaderColumns | theme.c:171-198 | the header announces name, size, owner and date, plus an icon column iff icons are displayed and a metadata column iff metadata is shown |
| Theme.PrintItemMatchesHeader | theme.c:171-198 | read as intended, every row has one cell per header column, in the header's order |
| Theme.PrintItemAsWrittenMatchesHeader | theme.c:303-309 | as written, a named row lines up with the header exactly when it has an icon or the header has no icon column |
| Theme.PrintItemAsWrittenDropsIconCell | theme.c:303-309 | as written, a row without an icon under an icon column is one cell short and misaligned |
| Theme.TextIconThemeMissesPdf | theme.c:515-561 | a theme whose only icon is a ".txt" map entry displays icons but has none for "a.pdf" |
| Theme.PdfRowDropsIconCell | theme.c:303-309 | under that theme the row of "a.pdf" has one cell fewer than the header |
| Listing.SetIRodsObject | listing.c:18-31 | every argument lands in its field and the result is 1 |
| Listing.SetIRodsObjectRoundTrip | listing.c:18-31 | setting an object's own fields gives the object back |
| Listing.SetIRodsObjectFromCollEntry | listing.c:34-71 | a collection's id is the query's value only for exactly one row; a data object's id is its dataId; the other fields are copied |
| Listing.SetIRodsObjectFromCollEntryShowsItemName | listing.c:34-93 | the object set from an entry is displayed under the name theme.c's row gives that entry; only its id depends on the id query |
| Listing.DisplayName | listing.c:74-93 | data name for data objects, collection basename for collections, none otherwise |
| Listing.ObjectIcon | listing.c:96-142 | agrees with the theme's icon lookup and fallback for the same type and name |
| Listing.AltText | listing.c:145-164 | exactly "iRods Data Object", "iRods Collection" or none, by type |
| Listing.ItemLinkMatchesDisplayName | theme.c:284-299 | the name printed in a row is the object's display name (with "/" for a collection) |
| Listing.RelativeLink | listing.c:167-211 | a link exists iff an exposed root and a collection exist and the root prefixes it; its shape is root (or "/"), separator, escaped relative collection, "/", escaped data name |
| Listing.RelativeLinkJoin | listing.c:179-193 | the join never loses the separator between root and collection; the "/" is added iff the root is non-empty and neither side has one; a root ending in "/" followed by a collection starting with "/" gives "//" |
| Listing.RelativeLinkDoublesSlash | listing.c:179-203 | URI root "dav/", exposed root "/zone" and collection "/zone/x" link to "dav//x/" |
| Listing.CollectionLinkEndsWithSlash | listing.c:201-204 | a link without a data name ends in "/" |
| Listing.SizeAsString | listing.c:214-237 | a size exists iff the object is a data object; the formatted size is preferred over the decimal one |
| Theme.SizeCell | theme.c:321-341 | the cell is always wrapped in the size td; it is empty exactly when the entry is not a data object; a data object's size ends in "B" and starts with the formatted size when there is one, else the plain number |
| Listing.SizeCellMatchesSizeAsString | theme.c:321-341 | the row's size cell shows the same size as the listing accessor, and is empty for non-data objects |
| DataPackage.RequestCollectionPath | frictionless_data_package.c:219-239 | a path exists iff the URI ends in "/datapackage.json"; the path plus "datapackage.json" is the URI and ends in "/" |
| DataPackage.RequestCollectionPathRoundTrip | frictionless_data_package.c:219-239 | any directory URI with "datapackage.json" appended is recognised and gives the directory back |
| DataPackage.IsDataPackageRequest | frictionless_data_package.c:242-273 | 1 iff the theme enables data packages and the collection path exists, 0 otherwise |
| DataPackage.PackageCollectionName | frictionless_data_package.c:103-117 | the collection name is the non-empty last path component; none for a path without '/' or ending in '/' |
| DataPackage.TokenValue | frictionless_data_package.c:441-462 | " ", "." and the two characters `\n` stand for themselves (the last as a newline); any other token is the table's value |
| DataPackage.Accumulate | frictionless_data_package.c:437-487 | the result is the accumulator followed by every token's contribution in order; none iff nothing contributed |
| DataPackage.MetadataValue | frictionless_data_package.c:429-490 | the value of a comma-separated key is the in-order concatenation of its tokens' values; none iff no token contributed |
| DataPackage.MetadataValueOfJoin | frictionless_data_package.c:429-490 | a key joined from present parts gives exactly the concatenation of their values |
| DataPackage.PlainKeyValue | frictionless_data_package.c:429-490 | a key without commas or special tokens reads the value of the table entry it names |
| DataPackage.StripLeadingSpace | frictionless_data_package.c:893-897 | only leading white space is removed, and the result starts with a non-space |
| DataPackage.Authors | frictionless_data_package.c:880-936 | one contributor per token in order, titled with the stripped token and role "author"; the first blank token stops the list |
| DataPackage.AuthorsOfList | frictionless_data_package.c:880-936 | names without commas, none of them blank, written out with commas between them and split by `apr_strtok` as the package build does, give exactly one author per name, in order, each titled by the name without its leading spaces |
| DataPackage.AuthorsOfTokens | frictionless_data_package.c:890-917 | tokens none of which is blank each give one author, titled by the token without its leading spaces |
| DataPackage.ConvertNameAsWritten | frictionless_data_package.c:945-965 | the name keeps its length and each character is rewritten by the condition as written |
| DataPackage.ConvertNameAsWrittenRewritesHyphen | frictionless_data_package.c:955 | the already compliant name "a-b" is rewritten to "a_b" |
| DataPackage.ConvertNameAsWrittenCompliant | frictionless_data_package.c:945-965 | the name as written is still compliant |
| DataPackage.ConvertNameReadingsAgree | frictionless_data_package.c:955 | the two conversions give the same name iff the name has no '-' |
| DataPackage.ConvertName | frictionless_data_package.c:941-965 | same length; every character becomes a lower-case letter, digit, '.', '_' or '-'; upper case is lowered |
| DataPackage.ConvertNameProperties | frictionless_data_package.c:941-942 | the result is compliant, compliant names are unchanged, and converting twice is converting once |
| DataPackage.ConvertNameCharAgreement | frictionless_data_package.c:955 | the written and the corrected conversion differ on exactly the character '-' |
| DataPackage.ConvertNameBy | frictionless_data_package.c:378 | under either reading the converted name keeps its length and is compliant |
| DataPackage.ConfiguredKeys | frictionless_data_package.c:288-350 | each key configured in the theme replaces its default |
| DataPackage.BuildDataPackage | frictionless_data_package.c:276-426 | an empty metadata table leaves the package empty; any name the package carries is compliant |
| DataPackage.BuildDataPackageLicense | frictionless_data_package.c:353-369 | a license entry exists iff both the license name and its URL are found, and it carries those two values |
| DataPackage.BuildDataPackageName | frictionless_data_package.c:355-385 | the name is the metadata name converted under the reading, or the converted collection name when no name is found |
| DataPackage.BuildDataPackageFields | frictionless_data_package.c:356-419 | title, id and description are the values found; contributors exist iff an authors value is found, one per listed author |
| DataPackage.BuildDataPackageReadings | frictionless_data_package.c:376-385 | the two readings build the same package but for its name, and the names agree iff the chosen name has no '-' |
| DataPackage.DefaultKeysArePlain | frictionless_data_package.c:282-300 | each default key names a single table entry |
| DataPackage.BuildDataPackageLicenseOfEntries | frictionless_data_package.c:353-369 | with plain keys, the license is built from the license-name and license-URL entries, and only when both exist |
| DataPackage.BuildDataPackageNameOfEntries | frictionless_data_package.c:355-385 | with a plain name key, the name is the converted name entry, else the converted collection name |
| DataPackage.BuildDataPackageFieldsOfEntries | frictionless_data_package.c:356-419 | with plain keys, title, id and description are their entries' values and the contributors come from the authors entry |
| DataPackage.RelativePath | frictionless_data_package.c:758-791 | none iff the root does not prefix the collection; equal paths give the root; otherwise the remainder after the root, without its first character when that is '/' |
| DataPackage.RelativePathOfChild | frictionless_data_package.c:758-791 | a child path below the root gives back the child's relative name |
| DataPackage.ResourcePath | frictionless_data_package.c:693-704 | the data name when the relative path is the collection itself, else the relative path, "/" and the data name |
| DataPackage.ResourcePathOfChild | frictionless_data_package.c:693-704 | a data object in sub-collection root/sub has the path sub/name |
| DataPackage.ResourceNameAsWritten | frictionless_data_package.c:709-726 | a path without '.' is its own name; otherwise the name is the path up to, and without, its last '.' |
| DataPackage.ResourceNameAsWrittenCutsDirectory | frictionless_data_package.c:709-726 | the path "v1.2/README" is named "v1" as written |
| DataPackage.ResourceName | frictionless_data_package.c:712-716 | the name is a prefix of the path, and a path without '.' is its own name |
| DataPackage.ResourceNameReadingsDiffer | frictionless_data_package.c:709-726 | the two readings name a path differently iff its last '.' is followed by a '/' |
| DataPackage.ResourceNameBy | frictionless_data_package.c:709-726 | under either reading the name is a prefix of the path, and the whole path when it has no '.' |
| DataPackage.ResourceNameKeepsDirectory | frictionless_data_package.c:712-716 | only the file component loses its extension; the directory part is kept whole |
| DataPackage.DotInFile | frictionless_data_package.c:712-716 | the last '.' of the file name is the last '.' of the whole path |
| DataPackage.NoDotInFile | frictionless_data_package.c:712-716 | a file name without '.' gives the whole path as the resource name, even when the directory has a '.' |
| DataPackage.DataObjectResource | frictionless_data_package.c:685-748 | bytes and checksum are the entry's; the path is the resource path and ends in the data name; the name is the path's name under the reading |
| DataPackage.CollectionResourceName | frictionless_data_package.c:794-830 | outside the root the name is the whole path; the root itself is named without its leading '/' (the whole path when that leaves nothing); a sub-collection is named by the part after the root and one '/'; any name is the whole path or a suffix of it |
| DataPackage.CollectionResourceNameOfChild | frictionless_data_package.c:758-819 | for every root, the sub-collection root + "/" + sub is named sub |
| DataPackage.CollectionResourceNameOfRoot | frictionless_data_package.c:785-819 | the package's own collection "/zone/pkg" is named "zone/pkg" |
| DataPackage.Resources | frictionless_data_package.c:600-635 | at most one resource per entry |
| DataPackage.ResourcesAppend | frictionless_data_package.c:600-635 | the resource list of concatenated entries is the concatenation of their lists |
| DataPackage.ResourcesOfOne | frictionless_data_package.c:609-630 | a data object gives its resource, a sub-collection gives nothing, an entry of another type ends the list |
| DataPackage.ResourcesCount | frictionless_data_package.c:600-635 | one resource per data object in the collection |
| Config.RootKind | config.c:36-51 | "Zone", "Home" and "User" in any case map to their kinds, everything else is custom |
| Config.SetExposedRoot | config.c:36-51 | the root and kind are stored in every case; 0 iff a named kind or a custom path starting with '/', else -1 |
| Config.CreateDirConfig | config.c:53-91 | the documented defaults: localhost:1247, tempZone, root "User", native auth, TTL 1, default buffer sizes |
| Config.DefaultRootInSync | config.c:68-69 | the default root and kind are what setting "User" produces |
| Config.MergedRoot | config.c:104-108 | child root, else parent root, else "User" |
| Config.MergeDirConfig | config.c:93-133 | the merge fails iff the chosen root is not accepted; otherwise it carries the chosen root and every other merged field |
| Config.MergeTakesChildRoot | config.c:58-69 | a child still holding its created default root merges successfully to the user-home kind, whatever the parent's root |
| Config.MergeKeepsAcceptedRoot | config.c:221-240 | a root accepted by the directive survives the merge |
| Config.ServerDirective | config.c:137-159 | the host is always stored; the port is stored iff 1 to 65535, otherwise the range error |
| Config.AuthSchemeDirective | config.c:161-176 | "Native" and "PAM" in any case are accepted; "Standard" gets its own hint; anything else is refused with the configuration unchanged |
| Config.AuthTtlDirective | config.c:178-192 | the TTL is stored iff positive, below 2^31 and parsed without range error; non-positive and too-large values get their own messages |
| Config.ExposedRootDirective | config.c:221-240 | errors iff the root is not accepted, and stores it anyway |
| Config.ExposedRootErrorIsSpecific | config.c:226-237 | the second error message can never be returned |
| Config.TimesKilo | config.c:247-248 | kb*1024 modulo 2^64, exact when it fits |
| Config.BufferSizeAsWritten | config.c:247-253 | the stored size wraps and the error fires iff a range error or a stored value below kb |
| Config.BufferSizeAsWrittenMissesWrap | config.c:247-253 | kb = 3*2^53 wraps to 2^63 and passes the check |
| Config.BufferSizeAsWrittenCatchesFirstWrap | config.c:247-253 | a wrap of kb*1024 below 2^64 + kb is caught by the written check |
| Config.BufferSize | config.c:242-271 | the stored size is exactly kb*1024 whenever no error is reported, and an error is reported iff it does not fit in 64 bits |
| Config.BufferSizeChecksAgree | config.c:247-253 | the written check and the corrected one agree on every kb whose kb*1024 fits in 64 bits |
| Config.BufferSizeBy | config.c:247-253 | the stored size is kb*1024 modulo 2^64 under both readings; only the verdict differs |
| Config.TxBufferDirective | config.c:242-256 | the transfer buffer is set to kb*1024 modulo 2^64 and nothing else changes; as written the error fires iff a range error or a stored size below kb, as intended iff a range error or kb*1024 >= 2^64 |
| Config.RxBufferDirective | config.c:258-271 | the receive buffer is set to kb*1024 modulo 2^64 and nothing else changes; the error under each reading as for the transfer buffer |
| Config.TxBufferReadingsAgree | config.c:247-253 | the two readings of the directive agree whenever kb*1024 fits, and differ for kb = 3*2^53 |
| Config.TmpfileRollbackDirective | config.c:273-288 | "yes" or "no" in any case is stored, anything else is refused with the configuration unchanged |
| Config.ThemedListingsDirective | config.c:379-389 | "true" sets the flag, anything else changes nothing, never an error |
| Config.HtmlMetadataDirective | config.c:391-409 | none, full and on_demand select their mode; other values are ignored; only that field changes |
| Config.HtmlIdsDirective | config.c:412-422 | "true" sets the flag, anything else changes nothing, never an error |
| Config.FlagsNeverReset | config.c:379-422 | once set, the themed-listing and show-ids flags stay set |
| Config.AddIconDirective | config.c:499-512 | the suffix maps to the icon, case-insensitively; every other key and every other field is unchanged |
| Config.AddIconsMapsEverySuffix | config.c:632 | after one directive line every listed suffix maps to the icon |
| Config.AddIconsKeepsSet | config.c:632 | a key already mapped to the icon still maps to it after the line |
| Auth.PasswordStep | auth.c:100-130 | the step succeeds iff the server accepts the credentials (with PAM, both requests); a refused PAM request ends SSL and sends nothing more; every password leaves with the SSL state of the step; Native is one login |
| Auth.RodsLogin | auth.c:136-351 | user-not-found iff no configuration; the password is sent iff every earlier check passes; access is granted iff it is sent, accepted and any unwanted SSL ends cleanly; denied iff it is sent and refused; 500 without a connection, with the wrong SSL state or for an over-long password; a refusal disconnects |
| Auth.RodsLoginIgnoresPrior | auth.c:137-160 | the previous value of the connection survives only when there is no configuration |
| Auth.ConnectionStep | auth.c:495-610 | the same user reuses the cached connection without a login; another user's connection is closed first; a login that is not granted passes its status and connection through and leaves the pool empty; a granted short user name with a readable environment is handed back and cached; long names are granted with no connection; an environment failure gives a general error |
| Auth.ConnectionStepHandsBackClosedConnection | auth.c:528-604 | without a configuration, a user replacing another gets user-not-found and the previous user's closed connection |
| Auth.GetIRodsConnectionAsWritten | auth.c:572-588 | after an environment failure the closed connection is still cached |
| Auth.GetIRodsConnectionAsWrittenGrantsDeadConnection | auth.c:512-588 | a failed environment read followed by a second request by the same user grants a closed connection without a login |
| Auth.GetIRodsConnection | auth.c:572-588 | a general error leaves the cache empty |
| Auth.GetIRodsConnectionKeepsHealthy | auth.c:495-610 | the cache never holds a closed connection, and access is only granted on a live one |
| Client.EscapeSelector | client/scripts/eirods-dav.js:526 | one backslash per special character is added and nothing else changes |
| Client.GetEscapedId | client/scripts/eirods-dav.js:525-527 | "#" followed by the escaped id; length 1 + length + number of special characters |
| Client.UnescapeEscapeSelector | client/scripts/eirods-dav.js:526 | dropping each inserted backslash gives the id back |
| Client.GetEscapedIdRoundTrip | client/scripts/eirods-dav.js:525-527 | the id is recovered from the selector |
| Client.GetEscapedIdOfPlain | client/scripts/eirods-dav.js:525-527 | an id without special characters is just prefixed with "#" |
| Client.DeleteRequest | client/scripts/eirods-dav.js:238-290 | a request is made iff id, key and value are all non-empty and the user confirms; the query is id, encoded key, encoded value |
| Client.DeleteRequestFields | client/scripts/eirods-dav.js:265 | the server reads back exactly the three fields |
| Client.ShowMetadataRequest | client/scripts/eirods-dav.js:610-630 | a request only when the list is not already on the page, asking for non-editable HTML for the id |
| Client.ShowMetadataRequestFields | client/scripts/eirods-dav.js:610-630 | the server reads exactly the fields edit=false, output_format=html and the id |
| Client.KeysUrl | client/scripts/eirods-dav.js:534 | the keys query carries the typed key verbatim |
| Client.KeysUrlFields | client/scripts/eirods-dav.js:534 | a key without '&' reaches the server as the single field key= |
| Client.KeysUrlPassesRawText | client/scripts/eirods-dav.js:534 | a typed key "a&b" reaches the server as the key a and a second field b |
| Client.ValuesUrl | client/scripts/eirods-dav.js:556 | the values query joins the raw key and value fields |
| Client.ValuesUrlPassesRawText | client/scripts/eirods-dav.js:556 | the key and value go into the query unescaped: a key "a&value=b" reaches the server as the fields key a, a forged value b, then the real value |
| Client.PopulateAutoCompleteList | client/scripts/eirods-dav.js:574-605 | the list holds exactly one item per value in order; shown when non-empty; an empty answer keeps its visibility |
| Client.PopulateAutoCompleteListForgetsAndRepeats | client/scripts/eirods-dav.js:577-603 | old items never survive, and repeating an answer changes nothing |
| Client.ChooseItem | client/scripts/eirods-dav.js:588-591 | clicking an item fills the input with its text and hides the list |
| Client.ChooseAfterPopulate | client/scripts/eirods-dav.js:579-591 | choosing from a fresh answer fills in that value |
| AprTable.Set | config.c:509 | the key now maps to the value, case-insensitively; every other key is unchanged |

## Left out

- Output streaming is not modelled: `DeliverThemedDirectory`, `DeliverFDDataPackage`, bucket brigades, `CacheDataPackageToDisk` and `CacheDataPackageToIRODS`. Collection reads are an input list of entries.
- The catalogue queries are not modelled. The metadata of an object, the id rows of a collection and checksums are inputs; `GetChecksum` is a parameter.
- JSON construction is not modelled. jansson allocation and append failures are not modelled; the package is a record.
- Date formatting (`apr_time_exp_lt`, `strftime`, `apr_rfc822_date`) is left out: it depends on timezone and locale. `GetIRodsObjectLastModifiedTime` is omitted for the same reason.
- Size formatting is left out. `apr_strfsize` and `apr_ltoa` are inputs to `Listing.SizeAsString`.
- `apr_atoi64` parsing is left out. The parsed value and the `ERANGE` flag are inputs to the TTL and buffer directives.
- `get_basename`, `ap_escape_html`, `ap_escape_uri`, `encodeURIComponent` and jQuery's `text()` are treated as opaque function parameters.
- `DAVRODS_PROP_MERGE` and the rest of config.h are not part of this model. `Config.MergeDirConfig` takes the field-wise merged configuration as a parameter and models only the exposed-root choice and the check.
- `MergeThemeConfigs` and `AllocateHtmlTheme` are not part of this model. The theme is an ordinary field of the configuration.
- Directives that only store their argument are left out: zone, default resource, env file, lock database, HTML head/top/bottom, collection/object/parent icons, listing class, metadata images, API path, default username and password.
- The "Unimplemented auth scheme" branch of `rods_login` is left out: it is unreachable with the two schemes.
- A pool holding a connection but no user name is not modelled.
- `RodsLogout`, `GetSessionAuth`, `check_rods` and the pool-key getters in auth.c are left out. They are Apache glue.
- `Theme.SortMetadata` is a stable insertion sort. `qsort` may order entries that compare equal differently. Only the permutation and the order are claimed.
- Character classes are ASCII only. C strings are assumed to hold no NUL.
- `Theme.PrintItem`: the owner and date texts and the fetched metadata are inputs. The contracts state the cells' columns and their markup, not how the date is formatted.
- `Theme.NameCells`: as intended, an entry that is neither a data object nor a collection gets an empty name cell. The code prints none; the catalogue lists no such entries.
- `Theme.PrintMetadataRoundTrip` requires keys, values and units without '<'. Otherwise the fragment cannot be read back unambiguously.
- `DataPackage.Resources`: every data object must have a name and lie in the package's collection or below it (`Listable`). For a data object outside that collection, `GetRelativePath` returns NULL and frictionless_data_package.c:693-696 passes it to `strcmp`. The model does not describe that case, nor a data object without a name; `ResourcePath` and `DataObjectResource` carry the same requirement.
- `DataPackage.CollectionResourceName`: `GetResources` skips collections, so this is never called in the list.
- `Theme.HtmlTheme`: config.c:397-405 writes `ht_show_metadata_flag`, while theme.c:48, :189 and :371 read `ht_show_metadata`. The model takes them to be one field, `showMetadata`. If they were two fields, `DavRodsHTMLMetadata` would never change the listing.
- `Theme.MetadataDisplay`: the values of `MD_NONE`, `MD_FULL` and `MD_ON_DEMAND` are not defined in any file of this model. The model takes `MD_NONE` to be 0, so that `showMetadata != MdNone` matches theme.c's `if (theme_p -> ht_show_metadata)`.
- Everything else in the client script (DOM wiring, editors, modals, tooltips) is left out, as are `davrods.js`, `curl_util.c`, `common.c`, `meta.c`, `debug.c`, `rest.c` and `mod_davrods.c`.

## Findings

| source | as written | input that shows it | evidently intended | confidence | as-written member | corrected member |
|---|---|---|---|---|---|---|
| frictionless_data_package.c:955 | `! (c == '.') \|\| c == '_' \|\| c == '-'` replaces '-' (and '_') with '_', because the negation binds to the first test only | the name "a-b" becomes "a_b" | keep '-', as the comment at :941-942 allows | not executed; high | DataPackage.ConvertNameAsWrittenRewritesHyphen | DataPackage.ConvertNameProperties |
| frictionless_data_package.c:709-726 | the resource name is the path cut at its last '.', wherever that is | root /zone/pkg, collection /zone/pkg/v1.2, data object README: path "v1.2/README", name "v1" | drop only the file's extension | not executed; medium | DataPackage.ResourceNameAsWrittenCutsDirectory | DataPackage.ResourceNameKeepsDirectory |
| config.c:247-253 | the overflow test `size < kb` misses wraps that land above kb | kb = 3*2^53 is stored as 2^63 without an error | reject every kb with kb*1024 >= 2^64 | not executed; high | Config.BufferSizeAsWrittenMissesWrap | Config.BufferSize |
| theme.c:303-309 | the row's icon cell is printed only when the entry has an icon, while the header's icon column (theme.c:176-181) is there whenever any icon setting exists | an icon map with only ".txt" and no default object icon: the row of "a.pdf" has no icon cell, so its name sits under the icon heading | print an empty icon cell when the column is shown | not executed; medium | Theme.PdfRowDropsIconCell | Theme.PrintItemMatchesHeader |
| auth.c:572-588 | after `getRodsEnv` fails, the connection is disconnected but stays cached with its user name | log in, fail the environment read, send a second request by the same user | remove the connection from the pool | not executed; high | Auth.GetIRodsConnectionAsWrittenGrantsDeadConnection | Auth.GetIRodsConnectionKeepsHealthy |

=== FILE: apr_table.dfy ===
/** An `apr_table_t`: keys are compared without regard to case, so a table
    is a map whose keys are stored lower-cased and looked up lower-cased. */
module AprTable {
  import opened Wrappers
  import opened Text

  lemma LowerAllIdempotent(s: string)
    ensures LowerAll(LowerAll(s)) == LowerAll(s)
  {
  }

  type Table<V> = t: map<string, V> | forall k :: k in t ==> LowerAll(k) == k
    witness map[]

  function Empty<V>(): Table<V> {
    map[]
  }

  /** `apr_table_get`. */
  function Get<V>(t: Table<V>, key: string): Option<V> {
    if LowerAll(key) in t then Some(t[LowerAll(key)]) else None
  }

  /** `apr_table_set`: replaces any entry whose key matches ignoring case. */
  function Set<V>(t: Table<V>, key: string, value: V): (r: Table<V>)
    ensures Get(r, key) == Some(value)
    ensures forall k :: !EqualsIgnoreCase(k, key) ==> Get(r, k) == Get(t, k)
  {
    LowerAllIdempotent(key);
    t[LowerAll(key) := value]
  }

  /** `apr_is_empty_table`. */
  predicate IsEmpty<V>(t: Table<V>) {
    |t| == 0
  }

  lemma EmptyHasNoEntries<V>(t: Table<V>, key: string)
    requires IsEmpty(t)
    ensures Get(t, key).None?
  {
  }
}

=== FILE: auth.dfy ===
/** The iRODS login and the per-client connection cache of auth.c. Every
    iRODS client call is abstracted to its outcome, given as an input
    (`LoginEnv`); the model records which calls are made, in order, and which
    connections end up disconnected. A connection is identified by a number. */
module Auth {
  import opened Wrappers
  import Config

  /** `authn_status`, plus the HTTP 500 that `rods_login` returns in its
      place on internal failures. */
  datatype AuthStatus = Granted | Denied | UserNotFound | GeneralError | InternalServerError

  /** The iRODS client calls that matter for the SSL policy; a login call
      records whether SSL was on when the password was sent. */
  datatype Call = Connect | SslStart | SslEnd | PamAuth(sslOn: bool) | PasswordLogin(sslOn: bool) | Disconnect(conn: nat)

  /** The outcomes of the calls `rods_login` makes, and the configuration it
      reads. */
  datatype LoginEnv = LoginEnv(
    confPresent: bool,
    scheme: Config.AuthScheme,
    connectOk: bool,
    newConn: nat,
    negotiation: Option<string>,
    sslAfterConnect: bool,
    sslStartOk: bool,
    pamOk: bool,
    loginOk: bool,
    sslEndOk: bool)

  /** `CS_NEG_USE_SSL` as the negotiation result asks for SSL on the whole
      connection; anything else, or no negotiation, means plain TCP. */
  predicate UseSsl(env: LoginEnv) {
    env.negotiation == Some("CS_NEG_USE_SSL")
  }

  /** `rods_login`'s result: the status, the value left in `*rods_conn`, the
      SSL state of that connection at the end, and the calls made. */
  datatype LoginOutcome = LoginOutcome(status: AuthStatus, conn: Option<nat>, ssl: bool, calls: seq<Call>)

  /** The longest password `rods_login` passes on. */
  const MaxPasswordLength := 63

  /** Whether the calls include a login with a password. */
  predicate SendsPassword(calls: seq<Call>) {
    exists i :: 0 <= i < |calls| && (calls[i].PamAuth? || calls[i].PasswordLogin?)
  }

  /** The iRODS server accepts the credentials: with PAM, both the PAM
      request and the login with the temporary password succeed. */
  predicate LoginAccepted(env: LoginEnv) {
    env.loginOk && (env.scheme == Config.Pam ==> env.pamOk)
  }

  /** `rods_login` gets as far as sending the password: there is a
      configuration, the connection opens, its SSL state is the one the
      policy demands (and, for PAM over plain TCP, SSL can be started), and
      the password is short enough. */
  predicate ReachesLogin(env: LoginEnv, password: string) {
    && env.confPresent && env.connectOk
    && !(UseSsl(env) && !env.sslAfterConnect)
    && !(!UseSsl(env) && env.scheme == Config.Pam && (env.sslAfterConnect || !env.sslStartOk))
    && |password| <= MaxPasswordLength
  }

  /** SSL is on after the password step but was not negotiated, so it has
      to be ended before the connection is handed back. */
  predicate NeedsSslEnd(env: LoginEnv) {
    !UseSsl(env) && (env.scheme == Config.Pam || env.sslAfterConnect)
  }

  /** The password step: with PAM, the PAM request (which ends SSL itself
      when it fails) and then a login with the temporary password; with
      Native, the login alone. */
  function PasswordStep(env: LoginEnv, ssl: bool): (r: (bool, bool, seq<Call>))
    ensures r.0 ==> r.1 == ssl
    ensures env.scheme == Config.Native ==> r == (env.loginOk, ssl, [PasswordLogin(ssl)])
    ensures env.scheme == Config.Pam ==> |r.2| > 0 && r.2[0] == PamAuth(ssl)
    ensures r.0 <==> LoginAccepted(env)
    // A refused PAM request ends SSL and sends nothing more.
    ensures env.scheme == Config.Pam && !env.pamOk ==> r == (false, false, [PamAuth(ssl), SslEnd])
    // An accepted one is followed by the login with the temporary password.
    ensures env.scheme == Config.Pam && env.pamOk ==> r.1 == ssl && r.2 == [PamAuth(ssl), PasswordLogin(ssl)]
    ensures forall i :: 0 <= i < |r.2| ==> (r.2[i].PamAuth? ==> r.2[i].sslOn == ssl) && (r.2[i].PasswordLogin? ==> r.2[i].sslOn == ssl)
  {
    match env.scheme
    case Pam =>
      if !env.pamOk then (false, false, [PamAuth(ssl), SslEnd])
      else (env.loginOk, ssl, [PamAuth(ssl), PasswordLogin(ssl)])
    case Native => (env.loginOk, ssl, [PasswordLogin(ssl)])
  }

  /** `rods_login`. `prior` is the value `*rods_conn` held on entry; it is
      left alone when there is no configuration. */
  function RodsLogin(env: LoginEnv, password: string, prior: Option<nat>): (r: LoginOutcome)
    ensures !env.confPresent ==> r == LoginOutcome(UserNotFound, prior, false, [])
    ensures env.confPresent && !env.connectOk ==> r == LoginOutcome(InternalServerError, None, false, [Connect])
    // SSL demanded but not on: nothing is sent.
    ensures env.confPresent && env.connectOk && UseSsl(env) && !env.sslAfterConnect ==>
              r.status == InternalServerError && !SendsPassword(r.calls)
    // An over-long password is never sent.
    ensures |password| > MaxPasswordLength ==> r.status != Granted && !SendsPassword(r.calls)
    // A PAM password only travels encrypted.
    ensures env.scheme == Config.Pam ==> forall i :: 0 <= i < |r.calls| ==> r.calls[i].PamAuth? ==> r.calls[i].sslOn
    // A refused login is disconnected and forgotten.
    ensures r.status == Denied ==> r.conn.None? && |r.calls| > 0 && r.calls[|r.calls| - 1] == Disconnect(env.newConn)
    // Access leaves the connection encrypted exactly as negotiated.
    ensures r.status == Granted ==> env.confPresent && env.connectOk && r.conn == Some(env.newConn) && r.ssl == UseSsl(env)
    ensures r.status == Granted && env.scheme == Config.Pam && !UseSsl(env) ==>
              |r.calls| > 0 && r.calls[|r.calls| - 1] == SslEnd
    ensures r.status in {UserNotFound, InternalServerError, Denied, Granted}
    ensures r.status == UserNotFound <==> !env.confPresent
    // Access is granted exactly when the password is sent, the server
    // accepts it, and any SSL the policy does not want is ended cleanly.
    ensures r.status == Granted <==> ReachesLogin(env, password) && LoginAccepted(env) && (NeedsSslEnd(env) ==> env.sslEndOk)
    // Refusal comes from the server alone.
    ensures r.status == Denied <==> ReachesLogin(env, password) && !LoginAccepted(env)
    ensures SendsPassword(r.calls) <==> ReachesLogin(env, password)
    // PAM over plain TCP refuses a connection that is already encrypted.
    ensures env.confPresent && env.connectOk && env.scheme == Config.Pam && !UseSsl(env) && env.sslAfterConnect ==>
              r.status == InternalServerError && !SendsPassword(r.calls)
    ensures env.confPresent && env.connectOk && |password| > MaxPasswordLength ==> r.status == InternalServerError
  {
    if !env.confPresent then LoginOutcome(UserNotFound, prior, false, [])
    else if !env.connectOk then LoginOutcome(InternalServerError, None, false, [Connect])
    else
      var c := env.newConn;
      var useSsl := UseSsl(env);
      var ssl := env.sslAfterConnect;
      if useSsl && !ssl then LoginOutcome(InternalServerError, Some(c), ssl, [Connect])
      else if !useSsl && env.scheme == Config.Pam && ssl then LoginOutcome(InternalServerError, Some(c), ssl, [Connect])
      else if !useSsl && env.scheme == Config.Pam && !env.sslStartOk then
        LoginOutcome(InternalServerError, Some(c), ssl, [Connect, SslStart])
      else
        var (ssl1, calls1) :=
          if !useSsl && env.scheme == Config.Pam then (true, [Connect, SslStart]) else (ssl, [Connect]);
        if |password| > MaxPasswordLength then LoginOutcome(InternalServerError, Some(c), ssl1, calls1)
        else
          var (ok, ssl2, step) := PasswordStep(env, ssl1);
          var calls2 := calls1 + step;
          assert forall i :: 0 <= i < |calls1| ==> calls2[i] == calls1[i];
          assert forall i :: 0 <= i < |step| ==> calls2[|calls1| + i] == step[i];
          var sent := |calls1|;
          assert calls2[sent].PamAuth? || calls2[sent].PasswordLogin?;
          if !ok then
            assert (calls2 + [Disconnect(c)])[sent] == calls2[sent];
            LoginOutcome(Denied, None, ssl2, calls2 + [Disconnect(c)])
          else if !useSsl && ssl2 then
            assert (calls2 + [SslEnd])[sent] == calls2[sent];
            if !env.sslEndOk then LoginOutcome(InternalServerError, Some(c), ssl2, calls2 + [SslEnd])
            else LoginOutcome(Granted, Some(c), false, calls2 + [SslEnd])
          else LoginOutcome(Granted, Some(c), ssl2, calls2)
  }

  /** The value `*rods_conn` held on entry only survives when there is no
      configuration: otherwise the outcome does not depend on it. */
  lemma RodsLoginIgnoresPrior(env: LoginEnv, password: string, p: Option<nat>, q: Option<nat>)
    ensures env.confPresent ==> RodsLogin(env, password, p) == RodsLogin(env, password, q)
    ensures !env.confPresent ==> RodsLogin(env, password, p).conn == p
  {
  }

  // ---------------------------------------------------------------------
  // The connection cache

  /** The connection cached in the client's pool, with the name of the user
      it was opened for. */
  datatype Cached = Cached(conn: nat, user: string)

  /** The pool of one client connection, and the iRODS connections that have
      been disconnected so far. */
  datatype Session = Session(pool: Option<Cached>, closed: set<nat>)

  /** `GetIRodsConnection2`'s result: the status, the connection handed back
      through `connection_pp` (if any), the session afterwards, and whether
      `rods_login` ran. */
  datatype Reply = Reply(status: AuthStatus, conn: Option<nat>, session: Session, loggedIn: bool)

  /** The connection cached in the pool, if any. */
  function PriorConn(s: Session): Option<nat> {
    if s.pool.Some? then Some(s.pool.value.conn) else None
  }

  /** The longest user name iRODS accepts. */
  const MaxUserNameLength := 63

  /** `GetIRodsConnection2`. `envOk` is the outcome of `getRodsEnv`. When it
      fails the connection is disconnected; `evictOnEnvFailure` says whether
      it is also removed from the pool (the code as written leaves it, see
      `GetIRodsConnectionAsWritten`). */
  function ConnectionStep(s: Session, env: LoginEnv, envOk: bool, user: string, password: string,
                          evictOnEnvFailure: bool): (r: Reply)
    ensures s.closed <= r.session.closed
    // The same user keeps the cached connection without logging in again.
    ensures s.pool.Some? && s.pool.value.user == user ==> r == Reply(Granted, Some(s.pool.value.conn), s, false)
    // A different user first closes the cached connection, then logs in.
    ensures s.pool.Some? && s.pool.value.user != user ==>
              r.loggedIn && s.pool.value.conn in r.session.closed
    ensures s.pool.None? ==> r.loggedIn
    // Only a granted login with a short user name is cached.
    ensures r.loggedIn && r.session.pool.Some? ==>
              r.session.pool.value == Cached(env.newConn, user) && |user| <= MaxUserNameLength
              && RodsLogin(env, password, None).status == Granted
    // An over-long user name is granted but gets no connection.
    ensures r.loggedIn && RodsLogin(env, password, None).status == Granted && |user| > MaxUserNameLength ==>
              r.status == Granted && r.conn.None? && env.newConn in r.session.closed
    ensures r.loggedIn && RodsLogin(env, password, None).status == Granted && |user| <= MaxUserNameLength && !envOk ==>
              r.status == GeneralError && r.conn.None? && env.newConn in r.session.closed
    // A login that is not granted passes its status and connection through
    // and leaves the pool empty.
    ensures var login := RodsLogin(env, password, PriorConn(s));
            r.loggedIn && login.status != Granted ==>
              r.status == login.status && r.conn == login.conn && r.session.pool.None?
    // A granted login with a short user name and a readable environment is
    // handed back and cached.
    ensures r.loggedIn && RodsLogin(env, password, None).status == Granted && |user| <= MaxUserNameLength && envOk ==>
              r.status == Granted && r.conn == Some(env.newConn) && r.session.pool == Some(Cached(env.newConn, user))
  {
    if s.pool.Some? && s.pool.value.user == user then Reply(Granted, Some(s.pool.value.conn), s, false)
    else
      // `apr_pool_clear` runs the connection's cleanup: it is disconnected,
      // but the local variable still refers to it.
      var prior := PriorConn(s);
      var closed := if s.pool.Some? then s.closed + {s.pool.value.conn} else s.closed;
      var login := RodsLogin(env, password, prior);
      var closed1 := if login.status == Denied then closed + {env.newConn} else closed;
      if login.status == Granted && login.conn.Some? then
        var c := login.conn.value;
        if |user| > MaxUserNameLength then Reply(Granted, None, Session(None, closed1 + {c}), true)
        else if envOk then Reply(Granted, Some(c), Session(Some(Cached(c, user)), closed1), true)
        else
          var pool := if evictOnEnvFailure then None else Some(Cached(c, user));
          Reply(GeneralError, None, Session(pool, closed1 + {c}), true)
      else Reply(login.status, login.conn, Session(None, closed1), true)
  }

  /** Without a configuration, a user replacing another is told the user is
      not found and handed back the previous user's connection, which has
      just been disconnected. */
  lemma ConnectionStepHandsBackClosedConnection(s: Session, env: LoginEnv, envOk: bool, user: string, password: string,
                                                evictOnEnvFailure: bool)
    requires s.pool.Some? && s.pool.value.user != user && !env.confPresent
    ensures var r := ConnectionStep(s, env, envOk, user, password, evictOnEnvFailure);
            r.status == UserNotFound && r.conn == Some(s.pool.value.conn) && s.pool.value.conn in r.session.closed
  {
  }

  /** `GetIRodsConnection2` as written: after a failed `getRodsEnv` the
      disconnected connection and its user name stay in the pool. */
  function GetIRodsConnectionAsWritten(s: Session, env: LoginEnv, envOk: bool, user: string, password: string): (r: Reply)
    ensures !envOk && r.loggedIn && r.status == GeneralError ==>
              r.session.pool.Some? && r.session.pool.value.conn in r.session.closed
  {
    ConnectionStep(s, env, envOk, user, password, false)
  }

  /** `GetIRodsConnection2` with the failed connection also removed from the
      pool. */
  function GetIRodsConnection(s: Session, env: LoginEnv, envOk: bool, user: string, password: string): (r: Reply)
    ensures r.status == GeneralError ==> r.session.pool.None?
  {
    ConnectionStep(s, env, envOk, user, password, true)
  }

  /** The cache never holds a disconnected connection. */
  predicate Healthy(s: Session) {
    s.pool.Some? ==> s.pool.value.conn !in s.closed
  }

  /** rcConnect hands out a connection that is not one already known. */
  predicate FreshConnection(s: Session, env: LoginEnv) {
    env.newConn !in s.closed && (s.pool.Some? ==> env.newConn != s.pool.value.conn)
  }

  /** The corrected cache stays healthy, and access is only ever granted on
      a live connection (or on none at all). */
  lemma GetIRodsConnectionKeepsHealthy(s: Session, env: LoginEnv, envOk: bool, user: string, password: string)
    requires Healthy(s) && FreshConnection(s, env)
    ensures Healthy(GetIRodsConnection(s, env, envOk, user, password).session)
    ensures var r := GetIRodsConnection(s, env, envOk, user, password);
            r.status == Granted && r.conn.Some? ==> r.conn.value !in r.session.closed
  {
    var login := RodsLogin(env, password, if s.pool.Some? then Some(s.pool.value.conn) else None);
    assert login.status == Granted ==> login.conn == Some(env.newConn);
  }

  /** The written code does not: a login whose environment read fails
      leaves a dead connection cached, and the user's next request is granted
      on it without a login. */
  lemma GetIRodsConnectionAsWrittenGrantsDeadConnection()
    ensures var env := LoginEnv(true, Config.Native, true, 7, None, false, true, true, true, true);
            var first := GetIRodsConnectionAsWritten(Session(None, {}), env, false, "alice", "secret");
            var second := GetIRodsConnectionAsWritten(first.session, env, true, "alice", "wrong");
            && Healthy(Session(None, {})) && FreshConnection(Session(None, {}), env)
            && first.status == GeneralError
            && second.status == Granted && !second.loggedIn
            && second.conn == Some(7) && 7 in second.session.closed
  {
    var env := LoginEnv(true, Config.Native, true, 7, None, false, true, true, true, true);
    assert RodsLogin(env, "secret", None).status == Granted;
  }
}

=== FILE: client.dfy ===
/** The browser helper's pure parts (client/scripts/eirods-dav.js): the
    jQuery id escaper, the request URLs of the metadata handlers, and the
    state change of the autocomplete list. `encodeURIComponent` is a
    parameter; the DOM, the requests themselves and the dialogs are not
    modelled. */
module Client {
  import opened Wrappers
  import opened Text

  /** `G_METADATA_API_URL_S`. */
  const MetadataApi := "/wheat/api/metadata/"

  // ---------------------------------------------------------------------
  // Id escaping

  /** The characters the escaper protects: ':', '.', '[', ']', ',', '=' and
      '@'. */
  predicate IsSelectorSpecial(c: char) {
    c == ':' || c == '.' || c == '[' || c == ']' || c == ',' || c == '=' || c == '@'
  }

  function CountSpecial(s: string): nat {
    if |s| == 0 then 0 else (if IsSelectorSpecial(s[0]) then 1 else 0) + CountSpecial(s[1..])
  }

  /** Every special character preceded by a backslash. */
  function EscapeSelector(s: string): (r: string)
    ensures |r| == |s| + CountSpecial(s)
    ensures |r| > 0 ==> !IsSelectorSpecial(r[0])
    ensures |s| > 0 && IsSelectorSpecial(s[0]) ==> r[..2] == ['\\', s[0]]
    ensures |s| > 0 && !IsSelectorSpecial(s[0]) ==> r[0] == s[0]
  {
    if |s| == 0 then []
    else if IsSelectorSpecial(s[0]) then ['\\', s[0]] + EscapeSelector(s[1..])
    else [s[0]] + EscapeSelector(s[1..])
  }

  /** `GetEscapedId`. */
  function GetEscapedId(s: string): (r: string)
    ensures |r| == 1 + |s| + CountSpecial(s)
    ensures r[0] == '#' && r[1..] == EscapeSelector(s)
  {
    "#" + EscapeSelector(s)
  }

  /** Reading an escaped selector back: a backslash before a special
      character is dropped. */
  function UnescapeSelector(t: string): (r: string)
    ensures |r| <= |t|
  {
    if |t| == 0 then []
    else if |t| > 1 && t[0] == '\\' && IsSelectorSpecial(t[1]) then [t[1]] + UnescapeSelector(t[2..])
    else [t[0]] + UnescapeSelector(t[1..])
  }

  /** Escaping loses nothing: without the '#' and the inserted backslashes
      the id comes back. */
  lemma {:induction false} UnescapeEscapeSelector(s: string)
    ensures UnescapeSelector(EscapeSelector(s)) == s
  {
    if |s| > 0 {
      var t := EscapeSelector(s);
      var rest := EscapeSelector(s[1..]);
      UnescapeEscapeSelector(s[1..]);
      if IsSelectorSpecial(s[0]) {
        assert t == ['\\', s[0]] + rest;
        assert t[2..] == rest;
      } else {
        assert t == [s[0]] + rest;
        assert t[1..] == rest;
        assert !(|t| > 1 && t[0] == '\\' && IsSelectorSpecial(t[1]));
      }
    }
  }

  lemma GetEscapedIdRoundTrip(s: string)
    ensures UnescapeSelector(GetEscapedId(s)[1..]) == s
  {
    UnescapeEscapeSelector(s);
  }

  /** An id without special characters is only prefixed. */
  lemma GetEscapedIdOfPlain(s: string)
    requires forall i :: 0 <= i < |s| ==> !IsSelectorSpecial(s[i])
    ensures GetEscapedId(s) == "#" + s
  {
    EscapeSelectorOfPlain(s);
  }

  lemma {:induction false} EscapeSelectorOfPlain(s: string)
    requires forall i :: 0 <= i < |s| ==> !IsSelectorSpecial(s[i])
    ensures EscapeSelector(s) == s
  {
    if |s| > 0 {
      EscapeSelectorOfPlain(s[1..]);
      assert s == [s[0]] + s[1..];
    }
  }

  // ---------------------------------------------------------------------
  // Request URLs

  /** A JavaScript string is truthy when it is present and not empty. */
  predicate Truthy(s: Option<string>) {
    s.Some? && |s.value| > 0
  }

  lemma JoinTwo(a: string, b: string, sep: char)
    ensures Join([a, b], sep) == a + [sep] + b
  {
    assert [a, b][1..] == [b];
  }

  lemma JoinThree(a: string, b: string, c: string, sep: char)
    ensures Join([a, b, c], sep) == a + [sep] + b + [sep] + c
  {
    assert [a, b, c][1..] == [b, c];
    JoinTwo(b, c, sep);
  }

  /** The fields of a query string, in order. */
  function QueryFields(query: string): seq<string> {
    Tokens(query, '&')
  }

  /** The URL the delete button requests: only with a key, a value and a row
      id, and only once the user has confirmed; key and value are encoded,
      the id is not. */
  function DeleteRequest(id: Option<string>, key: Option<string>, value: Option<string>, confirmed: bool,
                         encode: string -> string): (r: Option<string>)
    ensures r.Some? <==> Truthy(id) && Truthy(key) && Truthy(value) && confirmed
    ensures r.Some? ==> IsPrefix(MetadataApi + "delete?", r.value)
    ensures r.Some? ==>
              r.value == MetadataApi + "delete?" + Join(["id=" + id.value, "key=" + encode(key.value), "value=" + encode(value.value)], '&')
  {
    if Truthy(key) && Truthy(value) && Truthy(id) && confirmed then
      var url := MetadataApi + "delete?id=" + id.value + "&key=" + encode(key.value) + "&value=" + encode(value.value);
      JoinThree("id=" + id.value, "key=" + encode(key.value), "value=" + encode(value.value), '&');
      assert url == MetadataApi + "delete?" + ("id=" + id.value + "&" + ("key=" + encode(key.value)) + "&" + ("value=" + encode(value.value)));
      Some(url)
    else None
  }

  /** With an id free of '&' and an encoder that never writes one (as
      `encodeURIComponent` does), the server sees exactly the three fields. */
  lemma DeleteRequestFields(id: string, key: string, value: string, encode: string -> string)
    requires |id| > 0 && |key| > 0 && |value| > 0
    requires '&' !in id && '&' !in encode(key) && '&' !in encode(value)
    ensures var url := DeleteRequest(Some(id), Some(key), Some(value), true, encode).value;
            var prefix := MetadataApi + "delete?";
            QueryFields(url[|prefix|..]) == ["id=" + id, "key=" + encode(key), "value=" + encode(value)]
  {
    var fields := ["id=" + id, "key=" + encode(key), "value=" + encode(value)];
    assert forall i :: 0 <= i < |fields| ==> |fields[i]| > 0 && '&' !in fields[i];
    TokensOfJoin(fields, '&');
  }

  /** The URL `ShowMetadata` requests: none when the list is already in the
      page. */
  function ShowMetadataRequest(containerPresent: bool, id: string): (r: Option<string>)
    ensures r.Some? <==> !containerPresent
    ensures r.Some? ==> r.value == MetadataApi + "get?" + Join(["edit=false", "output_format=html", "id=" + id], '&')
  {
    if containerPresent then None
    else
      JoinThree("edit=false", "output_format=html", "id=" + id, '&');
      Some(MetadataApi + "get?" + ("edit=false" + "&" + "output_format=html" + "&" + ("id=" + id)))
  }

  /** The server reads three fields from the metadata request: read-only,
      HTML output, and the id, whenever the id holds no '&'. */
  lemma ShowMetadataRequestFields(id: string)
    requires '&' !in id
    ensures var url := ShowMetadataRequest(false, id).value;
            QueryFields(url[|MetadataApi + "get?"|..]) == ["edit=false", "output_format=html", "id=" + id]
  {
    var fields := ["edit=false", "output_format=html", "id=" + id];
    assert '&' !in "id=";
    assert forall i :: 0 <= i < |fields| ==> |fields[i]| > 0 && '&' !in fields[i];
    TokensOfJoin(fields, '&');
    DropQueryPrefix(MetadataApi + "get?", Join(fields, '&'));
  }

  /** The key autocomplete URL: the typed text, unencoded. */
  function KeysUrl(key: string): (r: string)
    ensures IsPrefix(MetadataApi + "keys?key=", r) && r[|MetadataApi + "keys?key="|..] == key
  {
    MetadataApi + "keys?key=" + key
  }

  /** A typed key without '&' reaches the server as the one field "key=". */
  lemma KeysUrlFields(key: string)
    requires '&' !in key
    ensures QueryFields(KeysUrl(key)[|MetadataApi + "keys?"|..]) == ["key=" + key]
  {
    var query := "key=" + key;
    assert '&' !in "key=";
    assert KeysUrl(key) == MetadataApi + "keys?" + query;
    DropQueryPrefix(MetadataApi + "keys?", query);
    assert Join([query], '&') == query;
    TokensOfJoin([query], '&');
  }

  /** Since the typed key is not encoded, "a&b" reaches the server as the key
      "a" and a second field "b". */
  lemma KeysUrlPassesRawText(a: string, b: string)
    requires '&' !in a && '&' !in b && |b| > 0
    ensures QueryFields(KeysUrl(a + "&" + b)[|MetadataApi + "keys?"|..]) == ["key=" + a, b]
  {
    var fields := ["key=" + a, b];
    assert '&' !in "key=";
    assert forall i :: 0 <= i < |fields| ==> |fields[i]| > 0 && '&' !in fields[i];
    JoinTwo("key=" + a, b, '&');
    assert KeysUrl(a + "&" + b) == MetadataApi + "keys?" + Join(fields, '&');
    DropQueryPrefix(MetadataApi + "keys?", Join(fields, '&'));
    TokensOfJoin(fields, '&');
  }

  /** The value autocomplete URL: both typed texts, unencoded. */
  function ValuesUrl(key: string, value: string): (r: string)
    ensures r == MetadataApi + "values?" + Join(["key=" + key, "value=" + value], '&')
  {
    JoinTwo("key=" + key, "value=" + value, '&');
    MetadataApi + "values?" + ("key=" + key + "&" + ("value=" + value))
  }

  /** Since the typed text is not encoded, a '&' in it starts a field of
      its own: a key "a&value=b" reaches the server as the key "a", a
      forged value "b", and then the real value. */
  lemma ValuesUrlPassesRawText(a: string, b: string, value: string)
    requires '&' !in a && '&' !in b && '&' !in value
    ensures var url := ValuesUrl(a + "&value=" + b, value);
            QueryFields(url[|MetadataApi + "values?"|..]) == ["key=" + a, "value=" + b, "value=" + value]
  {
    var fields := ["key=" + a, "value=" + b, "value=" + value];
    FieldsWithoutAmpersand(a, b, value);
    TokensOfJoin(fields, '&');
    ForgedQuery(a, b, value);
    DropQueryPrefix(MetadataApi + "values?", Join(fields, '&'));
  }

  lemma FieldsWithoutAmpersand(a: string, b: string, value: string)
    requires '&' !in a && '&' !in b && '&' !in value
    ensures var fields := ["key=" + a, "value=" + b, "value=" + value];
            forall i :: 0 <= i < |fields| ==> |fields[i]| > 0 && '&' !in fields[i]
  {
    assert '&' !in "key=" && '&' !in "value=";
  }

  /** The URL of a key carrying "&value=" is the URL of three fields. */
  lemma ForgedQuery(a: string, b: string, value: string)
    ensures ValuesUrl(a + "&value=" + b, value)
            == MetadataApi + "values?" + Join(["key=" + a, "value=" + b, "value=" + value], '&')
  {
    JoinTwo("key=" + (a + "&value=" + b), "value=" + value, '&');
    JoinThree("key=" + a, "value=" + b, "value=" + value, '&');
    assert "&value=" == "&" + "value=";
    assert "key=" + (a + "&value=" + b) == "key=" + a + "&" + ("value=" + b);
  }

  lemma DropQueryPrefix(prefix: string, query: string)
    ensures (prefix + query)[|prefix|..] == query
  {
  }

  // ---------------------------------------------------------------------
  // Autocomplete list

  /** The list element: its items, in order, and whether it is shown. */
  datatype ListState = ListState(items: seq<string>, visible: bool)

  /** The markup of one list entry. */
  function ListItem(value: string): string {
    "<li>" + value + "</li>"
  }

  /** `PopulateAutoCompleteList`: the list is emptied, one item is appended
      per value in order, and the list is shown when there is at least one;
      an empty answer leaves the list empty but does not hide it. */
  function PopulateAutoCompleteList(state: ListState, values: seq<string>): (r: ListState)
    ensures |r.items| == |values|
    ensures forall i :: 0 <= i < |values| ==> r.items[i] == ListItem(values[i])
    ensures |values| > 0 ==> r.visible
    ensures |values| == 0 ==> r.visible == state.visible
  {
    var items := seq(|values|, i requires 0 <= i < |values| => ListItem(values[i]));
    if |values| > 0 then ListState(items, true) else ListState(items, state.visible)
  }

  /** The old items never survive, and repeating an answer changes nothing. */
  lemma PopulateAutoCompleteListForgetsAndRepeats(s1: ListState, s2: ListState, values: seq<string>)
    ensures PopulateAutoCompleteList(s1, values).items == PopulateAutoCompleteList(s2, values).items
    ensures PopulateAutoCompleteList(PopulateAutoCompleteList(s1, values), values) == PopulateAutoCompleteList(s1, values)
  {
  }

  /** Clicking item `i`: the input box takes its text and the list is hidden.
      `text` is what jQuery reads back from the item. */
  function ChooseItem(state: ListState, i: nat, text: string -> string): (r: (string, ListState))
    requires i < |state.items|
    ensures r.0 == text(state.items[i]) && !r.1.visible && r.1.items == state.items
  {
    (text(state.items[i]), state.(visible := false))
  }

  /** Choosing from a fresh answer fills in the chosen value (for values
      whose markup reads back as themselves). */
  lemma ChooseAfterPopulate(state: ListState, values: seq<string>, i: nat, text: string -> string)
    requires i < |values|
    requires text(ListItem(values[i])) == values[i]
    ensures var s := PopulateAutoCompleteList(state, values);
            ChooseItem(s, i, text).0 == values[i] && !ChooseItem(s, i, text).1.visible
  {
  }
}

=== FILE: config.dfy ===
/** The per-directory configuration of the module (config.c): its defaults,
    the exposed-root rule, the merge of a parent and a child configuration,
    and the validating directive handlers. A handler returns the updated
    configuration together with the error text Apache reports, if any. */
module Config {
  import opened Wrappers
  import opened Text
  import AprTable
  import Theme
  import opened Readings

  /** The range of `apr_int64_t`, the type `apr_atoi64` parses into. */
  type Int64 = x: int | -0x8000_0000_0000_0000 <= x < 0x8000_0000_0000_0000

  /** `size_t` arithmetic wraps modulo 2^64. */
  const SizeModulus: int := 0x1_0000_0000_0000_0000

  datatype AuthScheme = Native | Pam

  /** `davrods_root_type_t`. */
  datatype RootType = ZoneDir | HomeDir | UserDir | CustomDir

  datatype DirConf = DirConf(
    host: string,
    port: int,
    zone: string,
    defaultResource: string,
    envFile: string,
    authScheme: AuthScheme,
    exposedRoot: Option<string>,
    exposedRootType: RootType,
    txBufferSize: int,
    rxBufferSize: int,
    tmpfileRollback: bool,
    lockdbPath: string,
    authTtl: int,
    apiPath: Option<string>,
    publicUsername: Option<string>,
    publicPassword: Option<string>,
    theme: Theme.HtmlTheme,
    themedListings: int)

  /** What a directive handler leaves behind: the configuration and the
      error text (`NULL` on success). */
  datatype Outcome = Outcome(conf: DirConf, error: Option<string>)

  // ---------------------------------------------------------------------
  // Exposed root

  /** The kind of root a name selects: "Zone", "Home" and "User" ignoring
      case, a custom path otherwise. */
  function RootKind(root: string): (r: RootType)
    ensures r == ZoneDir <==> EqualsIgnoreCase(root, "Zone")
    ensures r == HomeDir <==> EqualsIgnoreCase(root, "Home")
    ensures r == UserDir <==> EqualsIgnoreCase(root, "User")
  {
    CompareIgnoreCaseZero("Zone", root);
    CompareIgnoreCaseZero("Home", root);
    CompareIgnoreCaseZero("User", root);
    if CompareIgnoreCase("Zone", root) == 0 then ZoneDir
    else if CompareIgnoreCase("Home", root) == 0 then HomeDir
    else if CompareIgnoreCase("User", root) == 0 then UserDir
    else CustomDir
  }

  /** A root `set_exposed_root` accepts: a named one, or a path starting
      with '/'. */
  predicate AcceptedRoot(root: string) {
    RootKind(root) != CustomDir || (|root| > 0 && root[0] == '/')
  }

  /** `set_exposed_root`: the root and its kind are stored whatever the
      outcome; -1 reports a custom root that is empty or relative. */
  function SetExposedRoot(conf: DirConf, root: string): (r: (DirConf, int))
    ensures r.0 == conf.(exposedRoot := Some(root), exposedRootType := RootKind(root))
    ensures r.1 == 0 || r.1 == -1
    ensures r.1 == 0 <==> AcceptedRoot(root)
  {
    var kind := RootKind(root);
    var conf' := conf.(exposedRoot := Some(root), exposedRootType := kind);
    if kind == CustomDir && (|root| == 0 || root[0] != '/') then (conf', -1) else (conf', 0)
  }

  // ---------------------------------------------------------------------
  // Defaults and merge

  const DefaultBufferSize: int := 4 * 1024 * 1024

  /** `davrods_create_dir_config`. */
  function CreateDirConfig(): (r: DirConf)
    ensures r.port == 1247 && r.host == "localhost" && r.zone == "tempZone"
    ensures r.exposedRoot == Some("User") && r.exposedRootType == UserDir
    ensures r.txBufferSize == DefaultBufferSize && r.rxBufferSize == DefaultBufferSize
    ensures r.authScheme == Native && !r.tmpfileRollback && r.authTtl == 1
    ensures r.apiPath.None? && r.publicUsername.None? && r.publicPassword.None? && r.themedListings == 0
  {
    DirConf("localhost", 1247, "tempZone", "", "/etc/httpd/irods/irods_environment.json", Native,
            Some("User"), UserDir, DefaultBufferSize, DefaultBufferSize, false,
            "/var/lib/davrods/lockdb_locallock", 1, None, None, None, Theme.InitialTheme, 0)
  }

  /** The default root and the default root kind agree: setting the default
      root anew changes nothing. */
  lemma DefaultRootInSync()
    ensures SetExposedRoot(CreateDirConfig(), "User") == (CreateDirConfig(), 0)
  {
    assert RootKind("User") == UserDir by { assert EqualsIgnoreCase("User", "User"); }
  }

  /** The exposed root a merge starts from: the child's, else the parent's,
      else the default. */
  function MergedRoot(parent: DirConf, child: DirConf): (r: string)
    ensures child.exposedRoot.Some? ==> r == child.exposedRoot.value
    ensures child.exposedRoot.None? && parent.exposedRoot.Some? ==> r == parent.exposedRoot.value
    ensures child.exposedRoot.None? && parent.exposedRoot.None? ==> r == "User"
  {
    OrElse(child.exposedRoot, parent.exposedRoot).GetOr(CreateDirConfig().exposedRoot.value)
  }

  /** `davrods_merge_dir_config`. `merged` is the configuration after the
      property-by-property merges, whose rule lives in config.h, outside this
      model; the exposed root is chosen here and checked again, and a root
      that fails the check voids the whole merge. */
  function MergeDirConfig(parent: DirConf, child: DirConf, merged: DirConf): (r: Option<DirConf>)
    ensures r.None? <==> !AcceptedRoot(MergedRoot(parent, child))
    ensures r.Some? ==> r.value.exposedRoot == Some(MergedRoot(parent, child))
                        && r.value.exposedRootType == RootKind(MergedRoot(parent, child))
    ensures r.Some? ==> r.value.(exposedRoot := merged.exposedRoot, exposedRootType := merged.exposedRootType) == merged
  {
    var (conf, status) := SetExposedRoot(merged, MergedRoot(parent, child));
    if status < 0 then None else Some(conf)
  }

  /** A child configuration always starts from the defaults, so its root is
      never absent: the parent's root reaches a merge only through a child
      built some other way. */
  lemma MergeTakesChildRoot(parent: DirConf, child: DirConf, merged: DirConf)
    requires child.exposedRoot == CreateDirConfig().exposedRoot
    ensures MergeDirConfig(parent, child, merged).Some?
    ensures MergeDirConfig(parent, child, merged).value.exposedRootType == UserDir
  {
    DefaultRootInSync();
  }

  /** A root the exposed-root directive accepted survives the merge. */
  lemma MergeKeepsAcceptedRoot(parent: DirConf, child: DirConf, merged: DirConf, root: string)
    requires ExposedRootDirective(child, root).error.None?
    ensures MergeDirConfig(parent, ExposedRootDirective(child, root).conf, merged).Some?
    ensures MergeDirConfig(parent, ExposedRootDirective(child, root).conf, merged).value.exposedRoot == Some(root)
  {
  }

  // ---------------------------------------------------------------------
  // Directive handlers

  const PortRangeError := "iRODS server port out of range (1-65535)"

  /** `cmd_davrodsserver`: the host is stored whatever happens; the port only
      when it lies in 1..65535. */
  function ServerDirective(conf: DirConf, host: string, port: Int64): (r: Outcome)
    ensures r.conf.host == host
    ensures r.error.None? <==> 1 <= port <= 65535
    ensures r.error.None? ==> r.conf == conf.(host := host, port := port)
    ensures r.error.Some? ==> r.conf == conf.(host := host) && r.error.value == PortRangeError
  {
    var conf' := conf.(host := host);
    var clamped := if 65535 <= (if 1 >= port then 1 else port) then 65535 else (if 1 >= port then 1 else port);
    if port == clamped then Outcome(conf'.(port := port), None)
    else Outcome(conf', Some(PortRangeError))
  }

  const StandardSchemeError := "Invalid iRODS authentication scheme. Did you mean 'Native'?"
  const SchemeError := "Invalid iRODS authentication scheme. Valid options are 'Native' or 'PAM'."

  /** `cmd_davrodsauthscheme`: "Native" or "PAM" ignoring case; "Standard"
      earns a hint; the configuration is untouched on error. */
  function AuthSchemeDirective(conf: DirConf, arg: string): (r: Outcome)
    ensures r.error.None? <==> EqualsIgnoreCase(arg, "Native") || EqualsIgnoreCase(arg, "PAM")
    ensures EqualsIgnoreCase(arg, "Native") ==> r.conf == conf.(authScheme := Native)
    ensures EqualsIgnoreCase(arg, "PAM") ==> r.conf == conf.(authScheme := Pam)
    ensures r.error.Some? ==> r.conf == conf
    ensures r.error.Some? ==> (r.error.value == StandardSchemeError <==> EqualsIgnoreCase(arg, "Standard"))
  {
    CompareIgnoreCaseZero("Native", arg);
    CompareIgnoreCaseZero("PAM", arg);
    CompareIgnoreCaseZero("Standard", arg);
    if CompareIgnoreCase("Native", arg) == 0 then Outcome(conf.(authScheme := Native), None)
    else if CompareIgnoreCase("PAM", arg) == 0 then Outcome(conf.(authScheme := Pam), None)
    else if CompareIgnoreCase("Standard", arg) == 0 then Outcome(conf, Some(StandardSchemeError))
    else Outcome(conf, Some(SchemeError))
  }

  const TtlNotPositiveError := "The auth TTL must be higher than zero."
  const TtlTooHighError := "Auth TTL is too high - please specify a value that fits in an int32_t (i.e.: no more than 2 billion hours)."

  /** `ttl >> 31` for a non-negative 64-bit value. */
  function ShiftRight31(x: nat): nat {
    x / 0x8000_0000
  }

  /** `cmd_davrodsauthttl`. `erange` says that `errno` holds `ERANGE` after
      the parse. A TTL is stored only when it is positive and fits in 31
      bits. */
  function AuthTtlDirective(conf: DirConf, ttl: Int64, erange: bool): (r: Outcome)
    ensures r.error.None? <==> 0 < ttl < 0x8000_0000 && !erange
    ensures r.error.None? ==> r.conf == conf.(authTtl := ttl)
    ensures r.error.Some? ==> r.conf == conf
    ensures ttl <= 0 ==> r.error == Some(TtlNotPositiveError)
    ensures ttl > 0 && r.error.Some? ==> r.error == Some(TtlTooHighError)
  {
    if ttl <= 0 then Outcome(conf, Some(TtlNotPositiveError))
    else if erange || ShiftRight31(ttl) != 0 then Outcome(conf, Some(TtlTooHighError))
    else Outcome(conf.(authTtl := ttl), None)
  }

  const ExposedRootError := "iRODS exposed root must be one of 'Zone', 'Home', 'User' or a custom path starting with a '/'"
  const ExposedRootSanityError := "Could not set iRODS exposed root, is your path sane?"

  /** `cmd_davrodsexposedroot`: the root is stored even when it is refused. */
  function ExposedRootDirective(conf: DirConf, root: string): (r: Outcome)
    ensures r.conf == SetExposedRoot(conf, root).0
    ensures r.error.None? <==> AcceptedRoot(root)
  {
    var (conf', status) := SetExposedRoot(conf, root);
    if status < 0 then
      if conf'.exposedRootType == CustomDir && (|conf'.exposedRoot.value| == 0 || conf'.exposedRoot.value[0] != '/') then
        Outcome(conf', Some(ExposedRootError))
      else
        Outcome(conf', Some(ExposedRootSanityError))
    else Outcome(conf', None)
  }

  /** Every refusal names the accepted forms; the second message is never
      produced. */
  lemma ExposedRootErrorIsSpecific(conf: DirConf, root: string)
    ensures ExposedRootDirective(conf, root).error != Some(ExposedRootSanityError)
    ensures !AcceptedRoot(root) ==> ExposedRootDirective(conf, root).error == Some(ExposedRootError)
  {
  }

  const TxBufferError := "Please check if your transfer buffer size is sane"
  const RxBufferError := "Please check if your receive buffer size is sane"

  /** `size_t kb = apr_atoi64(arg)`, then `kb * 1024` in `size_t`. */
  function SizeOf(kb: Int64): (r: nat)
    ensures r < SizeModulus
    ensures kb >= 0 ==> r == kb
  {
    kb % SizeModulus
  }

  function TimesKilo(kb: nat): (r: nat)
    requires kb < SizeModulus
    ensures r < SizeModulus
    ensures kb * 1024 < SizeModulus ==> r == kb * 1024
  {
    (kb * 1024) % SizeModulus
  }

  /** The buffer-size check as written: the product, wrapped, is stored
      whatever happens; an error is reported when the parse overflowed or the
      stored value came out smaller than `kb`. */
  function BufferSizeAsWritten(kbParsed: Int64, erange: bool): (r: (nat, bool))
    ensures r.0 < SizeModulus
    ensures r.1 <==> erange || r.0 < SizeOf(kbParsed)
  {
    var kb := SizeOf(kbParsed);
    var size := TimesKilo(kb);
    (size, erange || size < kb)
  }

  /** A wrapped product is not always smaller than `kb`: 3 * 2^53 KiB is
      accepted and stores 2^63 bytes instead of 3 * 2^63. */
  lemma BufferSizeAsWrittenMissesWrap()
    ensures var kb := 3 * 0x20_0000_0000_0000;
            BufferSizeAsWritten(kb, false) == (0x8000_0000_0000_0000, false)
            && 0x8000_0000_0000_0000 != kb * 1024
  {
  }

  /** The intended check: refuse exactly the sizes whose byte count does not
      fit in a `size_t`. */
  function BufferSize(kbParsed: Int64, erange: bool): (r: (nat, bool))
    ensures r.0 < SizeModulus
    ensures !r.1 ==> r.0 == SizeOf(kbParsed) * 1024
    ensures r.1 <==> erange || SizeOf(kbParsed) * 1024 >= SizeModulus
  {
    var kb := SizeOf(kbParsed);
    var size := TimesKilo(kb);
    (size, erange || kb > (SizeModulus - 1) / 1024)
  }

  /** The two checks agree on every size that does not wrap, and also on
      every size that wraps by less than `kb`; they differ only on wraps
      that land at or above `kb`. */
  lemma BufferSizeChecksAgree(kbParsed: Int64, erange: bool)
    requires SizeOf(kbParsed) * 1024 < SizeModulus
    ensures BufferSizeAsWritten(kbParsed, erange) == BufferSize(kbParsed, erange)
  {
  }

  /** The as-written check does catch the first wrap of a size below
      2^64 / 1023 KiB: there the wrapped product is less than `kb`. */
  lemma BufferSizeAsWrittenCatchesFirstWrap(kbParsed: Int64, erange: bool)
    requires SizeModulus <= SizeOf(kbParsed) * 1024
    requires SizeOf(kbParsed) * 1023 < SizeModulus
    ensures BufferSizeAsWritten(kbParsed, erange).1
  {
    var kb := SizeOf(kbParsed);
    var product := kb * 1024;
    assert product < 2 * SizeModulus;
    assert product % SizeModulus == product - SizeModulus;
  }

  /** The buffer-size check under either reading. The stored byte count is
      the same under both: only the verdict differs. */
  function BufferSizeBy(reading: Reading, kbParsed: Int64, erange: bool): (r: (nat, bool))
    ensures r.0 == (SizeOf(kbParsed) * 1024) % SizeModulus
    ensures reading == AsWritten ==> (r.1 <==> erange || r.0 < SizeOf(kbParsed))
    ensures reading == Intended ==> (r.1 <==> erange || SizeOf(kbParsed) * 1024 >= SizeModulus)
  {
    match reading
    case AsWritten => BufferSizeAsWritten(kbParsed, erange)
    case Intended => BufferSize(kbParsed, erange)
  }

  /** `cmd_davrodstxbufferkbs`: the wrapped byte count is stored whatever the
      verdict; an error is reported by the reading's check. */
  function TxBufferDirective(reading: Reading, conf: DirConf, kbParsed: Int64, erange: bool): (r: Outcome)
    ensures r.conf == conf.(txBufferSize := (SizeOf(kbParsed) * 1024) % SizeModulus)
    ensures reading == AsWritten ==> (r.error.None? <==> !erange && r.conf.txBufferSize >= SizeOf(kbParsed))
    ensures reading == Intended ==> (r.error.None? <==> !erange && SizeOf(kbParsed) * 1024 < SizeModulus)
    ensures reading == Intended && r.error.None? ==> r.conf.txBufferSize == SizeOf(kbParsed) * 1024
    ensures r.error.Some? ==> r.error.value == TxBufferError
  {
    var (size, failed) := BufferSizeBy(reading, kbParsed, erange);
    Outcome(conf.(txBufferSize := size), if failed then Some(TxBufferError) else None)
  }

  /** `cmd_davrodsrxbufferkbs`: as for the transfer buffer, with its own
      message. */
  function RxBufferDirective(reading: Reading, conf: DirConf, kbParsed: Int64, erange: bool): (r: Outcome)
    ensures r.conf == conf.(rxBufferSize := (SizeOf(kbParsed) * 1024) % SizeModulus)
    ensures reading == AsWritten ==> (r.error.None? <==> !erange && r.conf.rxBufferSize >= SizeOf(kbParsed))
    ensures reading == Intended ==> (r.error.None? <==> !erange && SizeOf(kbParsed) * 1024 < SizeModulus)
    ensures reading == Intended && r.error.None? ==> r.conf.rxBufferSize == SizeOf(kbParsed) * 1024
    ensures r.error.Some? ==> r.error.value == RxBufferError
  {
    var (size, failed) := BufferSizeBy(reading, kbParsed, erange);
    Outcome(conf.(rxBufferSize := size), if failed then Some(RxBufferError) else None)
  }

  /** The two readings of a buffer directive agree on every size whose byte
      count fits, and the as-written one accepts a wrapped 3 * 2^53 KiB that
      the intended one refuses. */
  lemma TxBufferReadingsAgree(conf: DirConf, kbParsed: Int64, erange: bool)
    ensures SizeOf(kbParsed) * 1024 < SizeModulus ==>
              TxBufferDirective(AsWritten, conf, kbParsed, erange) == TxBufferDirective(Intended, conf, kbParsed, erange)
    ensures var kb := 3 * 0x20_0000_0000_0000;
            TxBufferDirective(AsWritten, conf, kb, false).error.None?
            && TxBufferDirective(Intended, conf, kb, false).error.Some?
  {
    if SizeOf(kbParsed) * 1024 < SizeModulus {
      BufferSizeChecksAgree(kbParsed, erange);
    }
    BufferSizeAsWrittenMissesWrap();
  }

  const RollbackError := "This directive accepts only 'Yes' and 'No' values"

  /** `cmd_davrodstmpfilerollback`: "yes" or "no" ignoring case. */
  function TmpfileRollbackDirective(conf: DirConf, arg: string): (r: Outcome)
    ensures r.error.None? <==> EqualsIgnoreCase(arg, "yes") || EqualsIgnoreCase(arg, "no")
    ensures r.error.None? ==> r.conf == conf.(tmpfileRollback := EqualsIgnoreCase(arg, "yes"))
    ensures r.error.Some? ==> r.conf == conf && r.error.value == RollbackError
  {
    CompareIgnoreCaseZero(arg, "yes");
    CompareIgnoreCaseZero(arg, "no");
    if CompareIgnoreCase(arg, "yes") == 0 then Outcome(conf.(tmpfileRollback := true), None)
    else if CompareIgnoreCase(arg, "no") == 0 then Outcome(conf.(tmpfileRollback := false), None)
    else Outcome(conf, Some(RollbackError))
  }

  /** `cmd_davrods_html_themed_listings`: "true" ignoring case switches
      themed listings on; nothing switches them off and nothing is an error. */
  function ThemedListingsDirective(conf: DirConf, arg: string): (r: Outcome)
    ensures r.error.None?
    ensures EqualsIgnoreCase(arg, "true") ==> r.conf == conf.(themedListings := 1)
    ensures !EqualsIgnoreCase(arg, "true") ==> r.conf == conf
  {
    CompareIgnoreCaseZero(arg, "true");
    if CompareIgnoreCase(arg, "true") == 0 then Outcome(conf.(themedListings := 1), None)
    else Outcome(conf, None)
  }

  /** `cmd_davrods_html_metadata`: "none", "full" or "on_demand" ignoring
      case; anything else is ignored. */
  function HtmlMetadataDirective(conf: DirConf, arg: string): (r: Outcome)
    ensures r.error.None?
    ensures r.conf == conf.(theme := r.conf.theme)
    ensures r.conf.theme == conf.theme.(showMetadata := r.conf.theme.showMetadata)
    ensures EqualsIgnoreCase(arg, "none") ==> r.conf.theme.showMetadata == Theme.MdNone
    ensures EqualsIgnoreCase(arg, "full") ==> r.conf.theme.showMetadata == Theme.MdFull
    ensures EqualsIgnoreCase(arg, "on_demand") ==> r.conf.theme.showMetadata == Theme.MdOnDemand
    ensures !EqualsIgnoreCase(arg, "none") && !EqualsIgnoreCase(arg, "full") && !EqualsIgnoreCase(arg, "on_demand")
            ==> r.conf == conf
  {
    CompareIgnoreCaseZero(arg, "none");
    CompareIgnoreCaseZero(arg, "full");
    CompareIgnoreCaseZero(arg, "on_demand");
    if CompareIgnoreCase(arg, "none") == 0 then Outcome(conf.(theme := conf.theme.(showMetadata := Theme.MdNone)), None)
    else if CompareIgnoreCase(arg, "full") == 0 then Outcome(conf.(theme := conf.theme.(showMetadata := Theme.MdFull)), None)
    else if CompareIgnoreCase(arg, "on_demand") == 0 then Outcome(conf.(theme := conf.theme.(showMetadata := Theme.MdOnDemand)), None)
    else Outcome(conf, None)
  }

  /** `cmd_davrods_html_ids`: "true" ignoring case switches ids on; nothing
      switches them off. */
  function HtmlIdsDirective(conf: DirConf, arg: string): (r: Outcome)
    ensures r.error.None?
    ensures EqualsIgnoreCase(arg, "true") ==> r.conf == conf.(theme := conf.theme.(showIds := 1))
    ensures !EqualsIgnoreCase(arg, "true") ==> r.conf == conf
  {
    CompareIgnoreCaseZero(arg, "true");
    if CompareIgnoreCase(arg, "true") == 0 then Outcome(conf.(theme := conf.theme.(showIds := 1)), None)
    else Outcome(conf, None)
  }

  /** Once on, themed listings and ids stay on, whatever value the
      directives are given again. */
  lemma FlagsNeverReset(conf: DirConf, arg: string)
    ensures conf.themedListings == 1 ==> ThemedListingsDirective(conf, arg).conf.themedListings == 1
    ensures conf.theme.showIds == 1 ==> HtmlIdsDirective(conf, arg).conf.theme.showIds == 1
  {
  }

  /** `cmd_davrods_html_add_icon`, called once per file suffix: the icon map
      is created on first use and the suffix (ignoring case) maps to the
      icon. */
  function AddIconDirective(conf: DirConf, icon: string, suffix: string): (r: Outcome)
    ensures r.error.None?
    ensures r.conf.theme.iconsMap.Some?
    ensures AprTable.Get(r.conf.theme.iconsMap.value, suffix) == Some(icon)
    ensures forall k :: !EqualsIgnoreCase(k, suffix) ==>
      AprTable.Get(r.conf.theme.iconsMap.value, k) ==
        (if conf.theme.iconsMap.Some? then AprTable.Get(conf.theme.iconsMap.value, k) else None)
    ensures r.conf == conf.(theme := conf.theme.(iconsMap := r.conf.theme.iconsMap))
  {
    var table := if conf.theme.iconsMap.Some? then conf.theme.iconsMap.value else AprTable.Empty();
    Outcome(conf.(theme := conf.theme.(iconsMap := Some(AprTable.Set(table, suffix, icon)))), None)
  }

  /** One `AddIcon` line: an icon and the suffixes it serves. */
  function AddIcons(conf: DirConf, icon: string, suffixes: seq<string>): (r: DirConf)
    ensures |suffixes| > 0 ==> r.theme.iconsMap.Some?
    ensures |suffixes| == 0 ==> r == conf
    decreases |suffixes|
  {
    if |suffixes| == 0 then conf
    else AddIcons(AddIconDirective(conf, icon, suffixes[0]).conf, icon, suffixes[1..])
  }

  /** The icon table of a configuration, empty when none was made yet. */
  function IconTable(conf: DirConf): AprTable.Table<string> {
    conf.theme.iconsMap.GetOr(AprTable.Empty())
  }

  /** `apr_table_set` of each suffix in turn, on the table alone. */
  function SetAll(t: AprTable.Table<string>, icon: string, suffixes: seq<string>): AprTable.Table<string>
    decreases |suffixes|
  {
    if |suffixes| == 0 then t else SetAll(AprTable.Set(t, suffixes[0], icon), icon, suffixes[1..])
  }

  /** An `AddIcon` line acts on the icon table only, one suffix at a time. */
  lemma {:induction false} AddIconsIsSetAll(conf: DirConf, icon: string, suffixes: seq<string>)
    requires |suffixes| > 0
    ensures AddIcons(conf, icon, suffixes).theme.iconsMap == Some(SetAll(IconTable(conf), icon, suffixes))
    decreases |suffixes|
  {
    var c1 := AddIconDirective(conf, icon, suffixes[0]).conf;
    assert IconTable(c1) == AprTable.Set(IconTable(conf), suffixes[0], icon);
    if |suffixes| > 1 {
      AddIconsIsSetAll(c1, icon, suffixes[1..]);
    }
  }

  lemma {:induction false} SetAllKeeps(t: AprTable.Table<string>, icon: string, suffixes: seq<string>, key: string)
    requires AprTable.Get(t, key) == Some(icon)
    ensures AprTable.Get(SetAll(t, icon, suffixes), key) == Some(icon)
    decreases |suffixes|
  {
    if |suffixes| > 0 {
      var t1 := AprTable.Set(t, suffixes[0], icon);
      assert AprTable.Get(t1, key) == Some(icon) by {
        if !EqualsIgnoreCase(key, suffixes[0]) {
          assert AprTable.Get(t1, key) == AprTable.Get(t, key);
        }
      }
      SetAllKeeps(t1, icon, suffixes[1..], key);
    }
  }

  lemma {:induction false} SetAllMapsEvery(t: AprTable.Table<string>, icon: string, suffixes: seq<string>)
    ensures forall i :: 0 <= i < |suffixes| ==> AprTable.Get(SetAll(t, icon, suffixes), suffixes[i]) == Some(icon)
    decreases |suffixes|
  {
    if |suffixes| > 0 {
      var t1 := AprTable.Set(t, suffixes[0], icon);
      SetAllMapsEvery(t1, icon, suffixes[1..]);
      SetAllKeeps(t1, icon, suffixes[1..], suffixes[0]);
      forall i | 0 <= i < |suffixes|
        ensures AprTable.Get(SetAll(t1, icon, suffixes[1..]), suffixes[i]) == Some(icon)
      {
        if i > 0 { assert suffixes[i] == suffixes[1..][i - 1]; }
      }
    }
  }

  /** After an `AddIcon` line every suffix it names shows its icon. */
  lemma AddIconsMapsEverySuffix(conf: DirConf, icon: string, suffixes: seq<string>)
    ensures forall i :: 0 <= i < |suffixes| ==>
      AprTable.Get(AddIcons(conf, icon, suffixes).theme.iconsMap.value, suffixes[i]) == Some(icon)
  {
    if |suffixes| > 0 {
      AddIconsIsSetAll(conf, icon, suffixes);
      SetAllMapsEvery(IconTable(conf), icon, suffixes);
    }
  }

  /** An entry for `icon` is never displaced by further suffixes of the same
      line. */
  lemma AddIconsKeepsSet(conf: DirConf, icon: string, suffixes: seq<string>, key: string)
    requires conf.theme.iconsMap.Some? && AprTable.Get(conf.theme.iconsMap.value, key) == Some(icon)
    ensures AddIcons(conf, icon, suffixes).theme.iconsMap.Some?
    ensures AprTable.Get(AddIcons(conf, icon, suffixes).theme.iconsMap.value, key) == Some(icon)
  {
    if |suffixes| > 0 {
      AddIconsIsSetAll(conf, icon, suffixes);
      SetAllKeeps(IconTable(conf), icon, suffixes, key);
    }
  }
}

=== FILE: data_package.dfy ===
/** Frictionless Data Package generation (frictionless_data_package.c):
    recognising a `datapackage.json` request, reading package fields from a
    collection's metadata, and listing the data objects below the collection
    as resources. JSON values are modelled as datatypes; building and
    serialising the JSON text, the catalogue queries and the checksum lookup
    are not modelled (the checksum is a parameter). */
module DataPackage {
  import opened Wrappers
  import opened Text
  import opened Irods
  import opened Readings
  import AprTable
  import Theme

  /** `S_DATA_PACKAGE_S`. */
  const DataPackageName := "datapackage.json"

  // ---------------------------------------------------------------------
  // Requests

  /** `GetFDDataPackageRequestCollectionPath`: for a URI whose last path
      component is `datapackage.json`, the URI of the collection holding it,
      trailing '/' included. */
  function RequestCollectionPath(uri: string): (r: Option<string>)
    ensures r.Some? <==> EndsWith(uri, "/" + DataPackageName)
    ensures r.Some? ==> r.value + DataPackageName == uri && EndsWith(r.value, "/")
  {
    var n := |DataPackageName|;
    DataPackageSuffix(uri);
    if |uri| > n && uri[|uri| - n - 1] == '/' && uri[|uri| - n..] == DataPackageName then
      assert uri[..|uri| - n] + uri[|uri| - n..] == uri;
      Some(uri[..|uri| - n])
    else None
  }

  /** The test the C code spells out character by character is the suffix
      test. */
  lemma DataPackageSuffix(uri: string)
    ensures var n := |DataPackageName|;
            EndsWith(uri, "/" + DataPackageName) <==>
              |uri| > n && uri[|uri| - n - 1] == '/' && uri[|uri| - n..] == DataPackageName
  {
    var n := |DataPackageName|;
    if |uri| > n {
      assert uri[|uri| - n - 1..] == [uri[|uri| - n - 1]] + uri[|uri| - n..];
    }
  }

  /** Any collection URI ending in '/' is recovered from the URI of its
      data package. */
  lemma RequestCollectionPathRoundTrip(dir: string)
    requires EndsWith(dir, "/")
    ensures RequestCollectionPath(dir + DataPackageName) == Some(dir)
  {
    var uri := dir + DataPackageName;
    assert uri[|uri| - |DataPackageName| - 1..] == "/" + DataPackageName;
    assert uri[..|uri| - |DataPackageName|] == dir;
  }

  /** `IsFDDataPackageRequest`: 1 exactly when a theme enables data packages
      and the URI names a data package; 0 otherwise. */
  function IsDataPackageRequest(uri: string, theme: Option<Theme.HtmlTheme>): (r: int)
    ensures r == 0 || r == 1
    ensures r == 1 <==> theme.Some? && theme.value.showFdDataPackages > 0 && RequestCollectionPath(uri).Some?
  {
    if theme.Some? && theme.value.showFdDataPackages > 0 then
      var n := |DataPackageName|;
      DataPackageSuffix(uri);
      if |uri| > n && uri[|uri| - n - 1] == '/' && uri[|uri| - n..] == DataPackageName then 1 else 0
    else 0
  }

  /** The local collection name `DeliverFDDataPackage` passes on: the text
      after the last '/' of the iRODS path, absent when there is no '/' or
      nothing follows it. */
  function PackageCollectionName(rodsPath: string): (r: Option<string>)
    ensures r.None? <==> '/' !in rodsPath || rodsPath[|rodsPath| - 1] == '/'
    ensures r.Some? ==> |r.value| > 0 && '/' !in r.value && EndsWith(rodsPath, "/" + r.value)
  {
    match LastIndexOf(rodsPath, '/')
    case None => None
    case Some(i) =>
      if i + 1 == |rodsPath| then None
      else
        assert rodsPath[i..] == "/" + rodsPath[i + 1..];
        Some(rodsPath[i + 1..])
  }

  // ---------------------------------------------------------------------
  // Metadata values

  /** What one key token contributes in `GetMetadataValue`: the literal
      tokens " ", "." and "\n" (written as backslash, n) stand for
      themselves, any other token for the value of the metadata entry it
      names, if there is one. */
  function TokenValue(token: string, table: AprTable.Table<IrodsMetadata>): (r: Option<string>)
    ensures token == " " ==> r == Some(" ")
    ensures token == "." ==> r == Some(".")
    ensures token == "\\n" ==> r == Some("\n")
    ensures token != " " && token != "." && token != "\\n" ==>
      (r.Some? <==> AprTable.Get(table, token).Some?)
      && (r.Some? ==> r.value == AprTable.Get(table, token).value.value)
  {
    if token == " " then Some(" ")
    else if token == "." then Some(".")
    else if token == "\\n" then Some("\n")
    else
      match AprTable.Get(table, token)
      case Some(m) => Some(m.value)
      case None => None
  }

  /** The contributions of the tokens that contribute, in order. */
  function Contributions(tokens: seq<string>, table: AprTable.Table<IrodsMetadata>): seq<string> {
    if |tokens| == 0 then []
    else
      var v := TokenValue(tokens[0], table);
      (if v.Some? then [v.value] else []) + Contributions(tokens[1..], table)
  }

  function Concat(parts: seq<string>): string {
    if |parts| == 0 then [] else parts[0] + Concat(parts[1..])
  }

  lemma ConcatCons(x: string, rest: seq<string>)
    ensures Concat([x] + rest) == x + Concat(rest)
  {
    assert ([x] + rest)[0] == x && ([x] + rest)[1..] == rest;
  }

  lemma AppendAssoc(a: string, b: string, c: string)
    ensures a + b + c == a + (b + c)
  {
  }

  /** The loop of `GetMetadataValue`: `acc` is the value built so far (NULL
      until a token contributes); each contribution is appended. */
  function Accumulate(tokens: seq<string>, table: AprTable.Table<IrodsMetadata>, acc: Option<string>): (r: Option<string>)
    ensures r.Some? <==> acc.Some? || |Contributions(tokens, table)| > 0
    ensures r.Some? ==> r.value == acc.GetOr([]) + Concat(Contributions(tokens, table))
  {
    if |tokens| == 0 then acc
    else
      var v := TokenValue(tokens[0], table);
      var rest := Contributions(tokens[1..], table);
      if v.Some? then
        assert Contributions(tokens, table) == [v.value] + rest;
        ConcatCons(v.value, rest);
        AppendAssoc(acc.GetOr([]), v.value, Concat(rest));
        Accumulate(tokens[1..], table, Some(acc.GetOr([]) + v.value))
      else
        assert Contributions(tokens, table) == rest;
        Accumulate(tokens[1..], table, acc)
  }

  /** `GetMetadataValue`: the key is a comma-separated list of key tokens;
      the value is the concatenation of what they contribute, and absent
      when none contributes. */
  function MetadataValue(key: string, table: AprTable.Table<IrodsMetadata>): (r: Option<string>)
    ensures r.Some? <==> |Contributions(Tokens(key, ','), table)| > 0
    ensures r.Some? ==> r.value == Concat(Contributions(Tokens(key, ','), table))
  {
    Accumulate(Tokens(key, ','), table, None)
  }

  /** A composite key joins the values it names: "first, ,last" spells out
      the first name, a space and the last name. */
  lemma {:induction false} MetadataValueOfJoin(keys: seq<string>, table: AprTable.Table<IrodsMetadata>)
    requires forall i :: 0 <= i < |keys| ==> |keys[i]| > 0 && ',' !in keys[i]
    requires forall i :: 0 <= i < |keys| ==> TokenValue(keys[i], table).Some?
    requires |keys| > 0
    ensures MetadataValue(Join(keys, ','), table) == Some(Concat(ValuesOf(keys, table)))
  {
    TokensOfJoin(keys, ',');
    ContributionsOfPresent(keys, table);
  }

  /** The contributions of tokens that all contribute. */
  function ValuesOf(keys: seq<string>, table: AprTable.Table<IrodsMetadata>): (r: seq<string>)
    requires forall i :: 0 <= i < |keys| ==> TokenValue(keys[i], table).Some?
    ensures |r| == |keys|
    ensures forall i :: 0 <= i < |keys| ==> r[i] == TokenValue(keys[i], table).value
  {
    if |keys| == 0 then [] else [TokenValue(keys[0], table).value] + ValuesOf(keys[1..], table)
  }

  lemma {:induction false} ContributionsOfPresent(keys: seq<string>, table: AprTable.Table<IrodsMetadata>)
    requires forall i :: 0 <= i < |keys| ==> TokenValue(keys[i], table).Some?
    ensures Contributions(keys, table) == ValuesOf(keys, table)
  {
    if |keys| > 0 {
      ContributionsOfPresent(keys[1..], table);
    }
  }

  /** A key naming one metadata entry: no comma, not one of the literal
      tokens. */
  predicate PlainKey(key: string) {
    |key| > 0 && ',' !in key && key != " " && key != "." && key != "\\n"
  }

  /** The value of the entry `key` names, if there is one. */
  function EntryValue(table: AprTable.Table<IrodsMetadata>, key: string): Option<string> {
    match AprTable.Get(table, key)
    case Some(m) => Some(m.value)
    case None => None
  }

  /** A plain key reads exactly the value of the metadata entry it names. */
  lemma PlainKeyValue(key: string, table: AprTable.Table<IrodsMetadata>)
    requires PlainKey(key)
    ensures MetadataValue(key, table) == EntryValue(table, key)
  {
    TokensOfJoin([key], ',');
    assert Join([key], ',') == key;
    var v := TokenValue(key, table);
    assert Contributions([key], table) == (if v.Some? then [v.value] else []) + Contributions([], table);
    assert Tokens(key, ',') == [key];
    if v.Some? {
      assert Concat([v.value]) == v.value + Concat([]) == v.value;
    } else {
      assert Contributions([key], table) == [];
    }
  }

  // ---------------------------------------------------------------------
  // Authors

  /** `key` with its leading white space removed. */
  function StripLeadingSpace(s: string): (r: string)
    ensures |r| <= |s| && r == s[|s| - |r|..]
    ensures forall i :: 0 <= i < |s| - |r| ==> IsSpace(s[i])
    ensures |r| > 0 ==> !IsSpace(r[0])
  {
    if |s| > 0 && IsSpace(s[0]) then StripLeadingSpace(s[1..]) else s
  }

  datatype Contributor = Contributor(title: string, role: string)

  /** `c` is the contributor `AddAuthors` makes of `token`. */
  predicate AuthorOf(c: Contributor, token: string) {
    c.title == StripLeadingSpace(token) && |c.title| > 0 && c.role == "author"
  }

  /** The contributors `AddAuthors` builds from the comma-separated tokens of
      the authors value: each token with its leading white space removed, in
      role "author", up to the first token that is all white space. */
  function Authors(tokens: seq<string>): (r: seq<Contributor>)
    ensures |r| <= |tokens|
    ensures forall i :: 0 <= i < |r| ==> AuthorOf(r[i], tokens[i])
    ensures |r| < |tokens| ==> StripLeadingSpace(tokens[|r|]) == []
  {
    if |tokens| == 0 then []
    else
      var title := StripLeadingSpace(tokens[0]);
      if title == [] then []
      else
        var tail := Authors(tokens[1..]);
        AuthorsCons(Contributor(title, "author"), tokens, tail);
        [Contributor(title, "author")] + tail
  }

  /** The inductive step of `Authors`: one more contributor in front. */
  lemma AuthorsCons(c: Contributor, tokens: seq<string>, tail: seq<Contributor>)
    requires |tokens| > 0 && AuthorOf(c, tokens[0])
    requires |tail| <= |tokens| - 1
    requires forall i :: 0 <= i < |tail| ==> AuthorOf(tail[i], tokens[1..][i])
    requires |tail| < |tokens| - 1 ==> StripLeadingSpace(tokens[1..][|tail|]) == []
    ensures forall i :: 0 <= i < |tail| + 1 ==> AuthorOf(([c] + tail)[i], tokens[i])
    ensures |tail| + 1 < |tokens| ==> StripLeadingSpace(tokens[|tail| + 1]) == []
  {
    forall i | 0 <= i < |tail| + 1
      ensures AuthorOf(([c] + tail)[i], tokens[i])
    {
      if i > 0 {
        AuthorShifted(c, tokens, tail, i);
      }
    }
    if |tail| + 1 < |tokens| {
      assert tokens[|tail| + 1] == tokens[1..][|tail|];
    }
  }

  /** Entry `i` of the longer list is entry `i - 1` of the tail. */
  lemma AuthorShifted(c: Contributor, tokens: seq<string>, tail: seq<Contributor>, i: nat)
    requires 0 < i < |tail| + 1 && |tail| < |tokens|
    requires AuthorOf(tail[i - 1], tokens[1..][i - 1])
    ensures AuthorOf(([c] + tail)[i], tokens[i])
  {
    var t := tokens[i];
    assert t == tokens[1..][i - 1];
    assert ([c] + tail)[i] == tail[i - 1];
  }

  /** The authors value a list of names makes when it is written out with
      commas between the names: each name comes back as one contributor, in
      order, without the spaces that may lead it. A name that is all white
      space would end the list, so none is. */
  lemma AuthorsOfList(names: seq<string>)
    requires forall i :: 0 <= i < |names| ==> ',' !in names[i] && StripLeadingSpace(names[i]) != []
    ensures Authors(Tokens(Join(names, ','), ',')) == AuthorsAs(names)
  {
    TokensOfJoin(names, ',');
    AuthorsOfTokens(names);
  }

  /** Tokens that are none of them blank each give one contributor. */
  lemma {:induction false} AuthorsOfTokens(names: seq<string>)
    requires forall i :: 0 <= i < |names| ==> StripLeadingSpace(names[i]) != []
    ensures Authors(names) == AuthorsAs(names)
  {
    if |names| > 0 {
      AuthorsOfTokens(names[1..]);
    }
  }

  /** One contributor per name, titled by the name without leading spaces. */
  function AuthorsAs(names: seq<string>): (r: seq<Contributor>)
    ensures |r| == |names|
    ensures forall i :: 0 <= i < |names| ==> r[i] == Contributor(StripLeadingSpace(names[i]), "author")
  {
    if |names| == 0 then [] else [Contributor(StripLeadingSpace(names[0]), "author")] + AuthorsAs(names[1..])
  }

  // ---------------------------------------------------------------------
  // Package names

  /** The package name rule: lower-case letters, digits, '.', '_' and '-'. */
  predicate IsNameChar(c: char) {
    IsLower(c) || IsDigit(c) || c == '.' || c == '_' || c == '-'
  }

  predicate IsCompliantName(s: string) {
    forall i :: 0 <= i < |s| ==> IsNameChar(s[i])
  }

  /** `ConvertFDCompliantName` as written: the test meant to keep '.', '_'
      and '-' negates only the '.' comparison, so every other character that
      is not alphanumeric, '-' included, becomes '_'. */
  function ConvertNameCharAsWritten(c: char): char {
    if IsUpper(c) then Lower(c)
    else if !(c == '.') || c == '_' || c == '-' then
      if !IsAlnum(c) then '_' else c
    else c
  }

  function ConvertNameAsWritten(s: string): (r: string)
    ensures |r| == |s|
    ensures forall i :: 0 <= i < |s| ==> r[i] == ConvertNameCharAsWritten(s[i])
  {
    if |s| == 0 then [] else [ConvertNameCharAsWritten(s[0])] + ConvertNameAsWritten(s[1..])
  }

  /** A name that already follows the rule is still altered: "a-b" becomes
      "a_b". */
  lemma ConvertNameAsWrittenRewritesHyphen()
    ensures IsCompliantName("a-b")
    ensures ConvertNameAsWritten("a-b") == "a_b"
  {
    assert ConvertNameAsWritten("a-b")[1] == '_';
  }

  /** The conversion the comment above `ConvertFDCompliantName` describes:
      upper-case letters are lowered, the allowed characters kept, anything
      else replaced by '_'. */
  function ConvertNameChar(c: char): (r: char)
    ensures IsNameChar(r)
    ensures IsNameChar(c) ==> r == c
    ensures IsUpper(c) ==> r == Lower(c)
  {
    if IsUpper(c) then Lower(c)
    else if IsNameChar(c) then c
    else '_'
  }

  function ConvertName(s: string): (r: string)
    ensures |r| == |s|
    ensures forall i :: 0 <= i < |s| ==> r[i] == ConvertNameChar(s[i])
  {
    if |s| == 0 then [] else [ConvertNameChar(s[0])] + ConvertName(s[1..])
  }

  /** The converted name follows the rule, a name that follows it is left
      alone, and converting twice changes nothing more. */
  lemma ConvertNameProperties(s: string)
    ensures IsCompliantName(ConvertName(s))
    ensures IsCompliantName(s) ==> ConvertName(s) == s
    ensures ConvertName(ConvertName(s)) == ConvertName(s)
  {
  }

  /** The corrected conversion agrees with the written one on every
      character except '-'. */
  lemma ConvertNameCharAgreement(c: char)
    ensures ConvertNameChar(c) == ConvertNameCharAsWritten(c) <==> c != '-'
  {
  }

  /** The written conversion replaces too much, but what it yields still
      follows the rule. */
  lemma ConvertNameAsWrittenCompliant(s: string)
    ensures IsCompliantName(ConvertNameAsWritten(s))
  {
    var r := ConvertNameAsWritten(s);
    forall i | 0 <= i < |s|
      ensures IsNameChar(r[i])
    {
      var c := s[i];
      if IsUpper(c) {
        assert IsLower(Lower(c));
      }
    }
  }

  /** The two conversions give the same name exactly when it has no '-'. */
  lemma ConvertNameReadingsAgree(s: string)
    ensures ConvertNameAsWritten(s) == ConvertName(s) <==> '-' !in s
  {
    if '-' in s {
      var i :| 0 <= i < |s| && s[i] == '-';
      ConvertNameCharAgreement(s[i]);
      assert ConvertNameAsWritten(s)[i] != ConvertName(s)[i];
    } else {
      forall i | 0 <= i < |s|
        ensures ConvertNameAsWritten(s)[i] == ConvertName(s)[i]
      {
        ConvertNameCharAgreement(s[i]);
      }
    }
  }

  /** The package-name conversion under either reading; both give a
      compliant name of the same length. */
  function ConvertNameBy(reading: Reading, s: string): (r: string)
    ensures |r| == |s| && IsCompliantName(r)
    ensures reading == AsWritten ==> r == ConvertNameAsWritten(s)
    ensures reading == Intended ==> r == ConvertName(s)
  {
    match reading
    case AsWritten => ConvertNameAsWrittenCompliant(s); ConvertNameAsWritten(s)
    case Intended => ConvertNameProperties(s); ConvertName(s)
  }

  // ---------------------------------------------------------------------
  // Package

  datatype License = License(name: string, path: string)

  /** The top-level fields `BuildDataPackage` may set. */
  datatype Package = Package(
    licenses: Option<seq<License>>,
    name: Option<string>,
    title: Option<string>,
    id: Option<string>,
    description: Option<string>,
    contributors: Option<seq<Contributor>>)

  const EmptyPackage := Package(None, None, None, None, None, None)

  /** The metadata keys the package fields are read from. */
  datatype Keys = Keys(licenseName: string, licenseUrl: string, name: string, description: string,
                       authors: string, title: string, id: string)

  const DefaultKeys := Keys("license", "license_url", "name", "description", "authors", "title", "id")

  /** The keys in effect: each one configured in the theme replaces its
      default. */
  function ConfiguredKeys(theme: Option<Theme.HtmlTheme>): (r: Keys)
    ensures theme.None? ==> r == DefaultKeys
    ensures theme.Some? ==>
      && r.licenseName == theme.value.fdLicenseNameKey.GetOr(DefaultKeys.licenseName)
      && r.licenseUrl == theme.value.fdLicenseUrlKey.GetOr(DefaultKeys.licenseUrl)
      && r.name == theme.value.fdNameKey.GetOr(DefaultKeys.name)
      && r.description == theme.value.fdDescriptionKey.GetOr(DefaultKeys.description)
      && r.authors == theme.value.fdAuthorsKey.GetOr(DefaultKeys.authors)
      && r.title == theme.value.fdTitleKey.GetOr(DefaultKeys.title)
      && r.id == theme.value.fdIdKey.GetOr(DefaultKeys.id)
  {
    if theme.None? then DefaultKeys
    else
      var t := theme.value;
      Keys(t.fdLicenseNameKey.GetOr(DefaultKeys.licenseName), t.fdLicenseUrlKey.GetOr(DefaultKeys.licenseUrl),
           t.fdNameKey.GetOr(DefaultKeys.name), t.fdDescriptionKey.GetOr(DefaultKeys.description),
           t.fdAuthorsKey.GetOr(DefaultKeys.authors), t.fdTitleKey.GetOr(DefaultKeys.title),
           t.fdIdKey.GetOr(DefaultKeys.id))
  }

  /** The package `name`: the chosen name made compliant. */
  function PackageName(reading: Reading, name: Option<string>): (r: Option<string>)
    ensures r.Some? <==> name.Some?
    ensures r.Some? ==> r.value == ConvertNameBy(reading, name.value) && IsCompliantName(r.value)
  {
    match name
    case None => None
    case Some(n) => Some(ConvertNameBy(reading, n))
  }

  /** `AddLicense` is called only when both the name and the URL are found. */
  function Licenses(name: Option<string>, url: Option<string>): (r: Option<seq<License>>)
    ensures r.Some? <==> name.Some? && url.Some?
    ensures r.Some? ==> r.value == [License(name.value, url.value)]
  {
    if name.Some? && url.Some? then Some([License(name.value, url.value)]) else None
  }

  /** The contributors of the authors value, when there is one. */
  function Contributors(authors: Option<string>): (r: Option<seq<Contributor>>)
    ensures r.Some? <==> authors.Some?
    ensures r.Some? ==> r.value == Authors(Tokens(authors.value, ','))
  {
    match authors
    case None => None
    case Some(a) => Some(Authors(Tokens(a, ',')))
  }

  /** `BuildDataPackage`: nothing is set for a collection without metadata,
      and a name, when set, is always compliant. The code as written
      converts the name with `ConvertNameAsWritten`. The lemmas below state
      each field. */
  function BuildDataPackage(reading: Reading, table: AprTable.Table<IrodsMetadata>, collectionName: Option<string>,
                            theme: Option<Theme.HtmlTheme>): (r: Package)
    ensures AprTable.IsEmpty(table) ==> r == EmptyPackage
    ensures r.name.Some? ==> IsCompliantName(r.name.value)
  {
    if AprTable.IsEmpty(table) then EmptyPackage
    else
      var keys := ConfiguredKeys(theme);
      Package(
        Licenses(MetadataValue(keys.licenseName, table), MetadataValue(keys.licenseUrl, table)),
        PackageName(reading, OrElse(MetadataValue(keys.name, table), collectionName)),
        MetadataValue(keys.title, table),
        MetadataValue(keys.id, table),
        MetadataValue(keys.description, table),
        Contributors(MetadataValue(keys.authors, table)))
  }

  /** A license is recorded only when both its name and its URL are found. */
  lemma BuildDataPackageLicense(reading: Reading, table: AprTable.Table<IrodsMetadata>, collectionName: Option<string>,
                                theme: Option<Theme.HtmlTheme>)
    requires !AprTable.IsEmpty(table)
    ensures var r := BuildDataPackage(reading, table, collectionName, theme);
            var keys := ConfiguredKeys(theme);
            var licenseName := MetadataValue(keys.licenseName, table);
            var licenseUrl := MetadataValue(keys.licenseUrl, table);
            && (r.licenses.Some? <==> licenseName.Some? && licenseUrl.Some?)
            && (r.licenses.Some? ==> r.licenses.value == [License(licenseName.value, licenseUrl.value)])
  {
  }

  /** The name metadata, or else the collection name, made compliant. */
  lemma BuildDataPackageName(reading: Reading, table: AprTable.Table<IrodsMetadata>, collectionName: Option<string>,
                             theme: Option<Theme.HtmlTheme>)
    requires !AprTable.IsEmpty(table)
    ensures var r := BuildDataPackage(reading, table, collectionName, theme);
            var name := MetadataValue(ConfiguredKeys(theme).name, table);
            && (r.name.Some? <==> name.Some? || collectionName.Some?)
            && (name.Some? ==> r.name == Some(ConvertNameBy(reading, name.value)))
            && (name.None? && collectionName.Some? ==> r.name == Some(ConvertNameBy(reading, collectionName.value)))
  {
  }

  /** Title, id and description are copied as found; the contributors come
      from the authors value. */
  lemma BuildDataPackageFields(reading: Reading, table: AprTable.Table<IrodsMetadata>, collectionName: Option<string>,
                               theme: Option<Theme.HtmlTheme>)
    requires !AprTable.IsEmpty(table)
    ensures var r := BuildDataPackage(reading, table, collectionName, theme);
            var keys := ConfiguredKeys(theme);
            var authors := MetadataValue(keys.authors, table);
            && r.title == MetadataValue(keys.title, table)
            && r.id == MetadataValue(keys.id, table)
            && r.description == MetadataValue(keys.description, table)
            && (r.contributors.Some? <==> authors.Some?)
            && (r.contributors.Some? ==> r.contributors.value == Authors(Tokens(authors.value, ',')))
  {
  }

  /** The two readings build the same package but for its name, and the
      names agree exactly when the chosen name has no '-'. */
  lemma BuildDataPackageReadings(table: AprTable.Table<IrodsMetadata>, collectionName: Option<string>,
                                 theme: Option<Theme.HtmlTheme>)
    ensures var written := BuildDataPackage(AsWritten, table, collectionName, theme);
            var intended := BuildDataPackage(Intended, table, collectionName, theme);
            written.(name := None) == intended.(name := None)
    ensures var written := BuildDataPackage(AsWritten, table, collectionName, theme);
            var intended := BuildDataPackage(Intended, table, collectionName, theme);
            var chosen := OrElse(MetadataValue(ConfiguredKeys(theme).name, table), collectionName);
            && (written.name.Some? <==> intended.name.Some?)
            && (written.name == intended.name <==> AprTable.IsEmpty(table) || chosen.None? || '-' !in chosen.value)
  {
    var chosen := OrElse(MetadataValue(ConfiguredKeys(theme).name, table), collectionName);
    if !AprTable.IsEmpty(table) && chosen.Some? {
      ConvertNameReadingsAgree(chosen.value);
    }
  }

  /** Every key in effect names a single entry. */
  predicate PlainKeys(keys: Keys) {
    && PlainKey(keys.licenseName) && PlainKey(keys.licenseUrl) && PlainKey(keys.name)
    && PlainKey(keys.description) && PlainKey(keys.authors) && PlainKey(keys.title) && PlainKey(keys.id)
  }

  /** The default keys each name a single entry. */
  lemma DefaultKeysArePlain()
    ensures PlainKeys(ConfiguredKeys(None))
  {
    assert PlainKey("license") && PlainKey("license_url") && PlainKey("name") && PlainKey("description");
    assert PlainKey("authors") && PlainKey("title") && PlainKey("id");
  }

  /** With keys that each name one entry, the license comes from the
      entries for the license name and URL. */
  lemma BuildDataPackageLicenseOfEntries(reading: Reading, table: AprTable.Table<IrodsMetadata>,
                                         collectionName: Option<string>, theme: Option<Theme.HtmlTheme>)
    requires !AprTable.IsEmpty(table) && PlainKeys(ConfiguredKeys(theme))
    ensures var r := BuildDataPackage(reading, table, collectionName, theme);
            var keys := ConfiguredKeys(theme);
            var licenseName := EntryValue(table, keys.licenseName);
            var licenseUrl := EntryValue(table, keys.licenseUrl);
            && (r.licenses.Some? <==> licenseName.Some? && licenseUrl.Some?)
            && (r.licenses.Some? ==> r.licenses.value == [License(licenseName.value, licenseUrl.value)])
  {
    var keys := ConfiguredKeys(theme);
    PlainKeyValue(keys.licenseName, table);
    PlainKeyValue(keys.licenseUrl, table);
    BuildDataPackageLicense(reading, table, collectionName, theme);
  }

  /** With a plain name key, the name is the converted value of the name
      entry, or the converted collection name when there is no such entry. */
  lemma BuildDataPackageNameOfEntries(reading: Reading, table: AprTable.Table<IrodsMetadata>,
                                      collectionName: Option<string>, theme: Option<Theme.HtmlTheme>)
    requires !AprTable.IsEmpty(table) && PlainKey(ConfiguredKeys(theme).name)
    ensures var r := BuildDataPackage(reading, table, collectionName, theme);
            var name := EntryValue(table, ConfiguredKeys(theme).name);
            && (name.Some? ==> r.name == Some(ConvertNameBy(reading, name.value)))
            && (name.None? ==> r.name == if collectionName.Some? then Some(ConvertNameBy(reading, collectionName.value)) else None)
  {
    PlainKeyValue(ConfiguredKeys(theme).name, table);
    BuildDataPackageName(reading, table, collectionName, theme);
  }

  /** With keys that each name one entry, title, id and description are the
      values of their entries, and the authors entry gives the contributors. */
  lemma BuildDataPackageFieldsOfEntries(reading: Reading, table: AprTable.Table<IrodsMetadata>,
                                        collectionName: Option<string>, theme: Option<Theme.HtmlTheme>)
    requires !AprTable.IsEmpty(table) && PlainKeys(ConfiguredKeys(theme))
    ensures var r := BuildDataPackage(reading, table, collectionName, theme);
            var keys := ConfiguredKeys(theme);
            var authors := EntryValue(table, keys.authors);
            && r.title == EntryValue(table, keys.title)
            && r.id == EntryValue(table, keys.id)
            && r.description == EntryValue(table, keys.description)
            && (r.contributors.Some? <==> authors.Some?)
            && (r.contributors.Some? ==> r.contributors.value == Authors(Tokens(authors.value, ',')))
  {
    var keys := ConfiguredKeys(theme);
    PlainKeyValue(keys.title, table);
    PlainKeyValue(keys.id, table);
    PlainKeyValue(keys.description, table);
    PlainKeyValue(keys.authors, table);
    BuildDataPackageFields(reading, table, collectionName, theme);
  }

  // ---------------------------------------------------------------------
  // Resources

  /** `GetRelativePath`: the root itself for the root; for a collection
      below it, the rest of the path without its leading '/'; nothing for a
      collection elsewhere. */
  function RelativePath(root: string, collection: string): (r: Option<string>)
    ensures r.None? <==> !IsPrefix(root, collection)
    ensures root == collection ==> r == Some(root)
    ensures root != collection && IsPrefix(root, collection) && collection[|root|] == '/' ==>
      r == Some(collection[|root| + 1..])
    ensures root != collection && IsPrefix(root, collection) && collection[|root|] != '/' ==>
      r == Some(collection[|root|..])
    ensures root != collection && r.Some? ==>
      collection == root + r.value || collection == root + "/" + r.value
  {
    if root == collection then Some(root)
    else if IsPrefix(root, collection) then
      var rest := collection[|root|..];
      assert collection == root + rest;
      if |rest| > 0 && rest[0] == '/' then
        assert rest == "/" + rest[1..];
        Some(rest[1..])
      else Some(rest)
    else None
  }

  /** A sub-collection's relative path is the part after the root and its
      separator. */
  lemma RelativePathOfChild(root: string, name: string)
    requires |name| > 0 && name[0] != '/'
    ensures RelativePath(root, root + "/" + name) == Some(name)
  {
    var c := root + "/" + name;
    assert c[..|root|] == root;
    assert c[|root|..] == "/" + name;
  }

  datatype Resource = Resource(bytes: int, path: string, name: string, checksum: Option<string>)

  /** An entry `PopulateResourceFromDataObject` can handle: a named data
      object in the package's collection or below it (the catalogue lists
      nothing else; for any other collection the relative path would be
      NULL and the code would dereference it). */
  predicate Listable(root: string, e: CollEntry) {
    e.objType == DataObj ==> e.dataName.Some? && IsPrefix(root, e.collName)
  }

  /** Every entry is `Listable`, stated entry by entry from the front. */
  predicate AllListable(root: string, entries: seq<CollEntry>) {
    |entries| == 0 || (Listable(root, entries[0]) && AllListable(root, entries[1..]))
  }

  /** No entry is of an unknown kind. */
  predicate NoUnknown(entries: seq<CollEntry>) {
    |entries| == 0 || (entries[0].objType != OtherObj && NoUnknown(entries[1..]))
  }

  lemma {:induction false} AllListableAppend(root: string, a: seq<CollEntry>, b: seq<CollEntry>)
    requires AllListable(root, a) && AllListable(root, b)
    ensures AllListable(root, a + b)
  {
    if |a| == 0 {
      assert a + b == b;
    } else {
      assert (a + b)[0] == a[0];
      assert (a + b)[1..] == a[1..] + b;
      AllListableAppend(root, a[1..], b);
    }
  }

  /** The resource path: the data name in the package collection itself,
      else the relative collection path, '/', and the data name. */
  function ResourcePath(root: string, e: CollEntry): (r: string)
    requires e.objType == DataObj && Listable(root, e)
    ensures e.collName == root ==> r == e.dataName.value
    ensures var relative := RelativePath(root, e.collName).value;
            relative != e.collName ==> r == relative + "/" + e.dataName.value
    ensures EndsWith(r, e.dataName.value)
  {
    var relative := RelativePath(root, e.collName).value;
    if relative == e.collName then e.dataName.value
    else
      var r := relative + "/" + e.dataName.value;
      assert r[|r| - |e.dataName.value|..] == e.dataName.value;
      r
  }

  /** A data object in a sub-collection of the root has the sub-collection's
      relative path, '/', and its data name as its resource path. */
  lemma ResourcePathOfChild(root: string, sub: string, e: CollEntry)
    requires |sub| > 0 && sub[0] != '/'
    requires e.objType == DataObj && e.dataName.Some? && e.collName == root + "/" + sub
    ensures Listable(root, e)
    ensures ResourcePath(root, e) == sub + "/" + e.dataName.value
  {
    RelativePathOfChild(root, sub);
    assert |e.collName| > |sub|;
  }

  /** The resource name as written: the path cut at its last '.', wherever
      that '.' is. */
  function ResourceNameAsWritten(path: string): (r: string)
    ensures IsPrefix(r, path)
    ensures '.' !in path ==> r == path
    ensures '.' in path ==> |r| < |path| && path[|r|] == '.' && '.' !in path[|r| + 1..]
  {
    match LastIndexOf(path, '.')
    case None => path
    case Some(i) => path[..i]
  }

  /** A '.' in a directory of the path, not in the file name, cuts the
      directory: "v1.2/README" is named "v1". */
  lemma ResourceNameAsWrittenCutsDirectory()
    ensures ResourceNameAsWritten("v1.2/README") == "v1"
    ensures ResourceName("v1.2/README") == "v1.2/README"
  {
    var p := "v1.2/README";
    assert p[2] == '.' && '.' !in p[3..];
    assert p[..2] == "v1";
    assert p[3..][1] == '/';
  }

  /** The resource name meant by "the filename without the extension": the
      path with the extension of its last component removed. */
  function ResourceName(path: string): (r: string)
    ensures IsPrefix(r, path)
    ensures '.' !in path ==> r == path
  {
    match LastIndexOf(path, '.')
    case None => path
    case Some(i) => if '/' in path[i + 1..] then path else path[..i]
  }

  /** The two readings name a path differently exactly when its last '.'
      lies in a directory, that is, a '/' follows it. */
  lemma ResourceNameReadingsDiffer(path: string)
    ensures ResourceNameAsWritten(path) != ResourceName(path) <==>
              LastIndexOf(path, '.').Some? && '/' in path[LastIndexOf(path, '.').value + 1..]
  {
  }

  /** The resource name under either reading. */
  function ResourceNameBy(reading: Reading, path: string): (r: string)
    ensures IsPrefix(r, path)
    ensures '.' !in path ==> r == path
    ensures reading == AsWritten ==> r == ResourceNameAsWritten(path)
    ensures reading == Intended ==> r == ResourceName(path)
  {
    match reading
    case AsWritten => ResourceNameAsWritten(path)
    case Intended => ResourceName(path)
  }

  /** Only the last component loses its extension: the directory part of the
      path is kept as it is. */
  lemma ResourceNameKeepsDirectory(dir: string, file: string)
    requires '/' !in file
    ensures ResourceName(dir + "/" + file) == dir + "/" + ResourceName(file)
  {
    match LastIndexOf(file, '.')
    case None => NoDotInFile(dir, file);
    case Some(j) =>
      var p := dir + "/" + file;
      DotInFile(dir, file, j);
      SplitAtFileIndex(dir, file, j);
      assert '/' !in file[j + 1..] by { assert forall x :: x in file[j + 1..] ==> x in file; }
      assert '/' !in p[|dir| + 1 + j + 1..];
      assert ResourceName(p) == p[..|dir| + 1 + j];
      assert ResourceName(file) == file[..j];
  }

  /** With no '.' in the file name, the last '.' of the path, if any, lies
      in the directory, so a '/' follows it. */
  lemma NoDotInFile(dir: string, file: string)
    requires '/' !in file && LastIndexOf(file, '.').None?
    ensures ResourceName(dir + "/" + file) == dir + "/" + file
  {
    var p := dir + "/" + file;
    var lp := LastIndexOf(p, '.');
    if lp.Some? {
      var i := lp.value;
      assert forall k :: |dir| + 1 <= k < |p| ==> p[k] == file[k - |dir| - 1];
      assert i < |dir|;
      assert p[i + 1..][|dir| - i - 1] == '/';
    }
  }

  /** The last '.' of the file name is the last '.' of the path. */
  lemma DotInFile(dir: string, file: string, j: nat)
    requires j < |file| && file[j] == '.' && '.' !in file[j + 1..]
    ensures LastIndexOf(dir + "/" + file, '.') == Some(|dir| + 1 + j)
  {
    var p := dir + "/" + file;
    var k := |dir| + 1 + j;
    SplitAtFileIndex(dir, file, j);
    assert p[k] == '.';
    assert '.' !in p[k + 1..];
    LastIndexOfIs(p, '.', k);
  }

  /** Index `j` of the file name is index `|dir| + 1 + j` of the path. */
  lemma SplitAtFileIndex(dir: string, file: string, j: nat)
    requires j < |file|
    ensures (dir + "/" + file)[|dir| + 1 + j] == file[j]
    ensures (dir + "/" + file)[|dir| + 1 + j + 1..] == file[j + 1..]
    ensures (dir + "/" + file)[..|dir| + 1 + j] == dir + "/" + file[..j]
  {
    var p := dir + "/" + file;
    var k := |dir| + 1 + j;
    assert p[k + 1..] == file[j + 1..] by {
      assert p[|dir| + 1..] == file;
    }
    assert p[..k] == dir + "/" + file[..j] by {
      assert p[..|dir| + 1] == dir + "/";
      assert p[|dir| + 1..k] == file[..j];
    }
  }

  /** `PopulateResourceFromDataObject`: size, path and the name derived from
      it; the checksum is set when the catalogue has one. */
  function DataObjectResource(reading: Reading, root: string, e: CollEntry, checksum: Option<string>): (r: Resource)
    requires e.objType == DataObj && Listable(root, e)
    ensures r.bytes == e.dataSize && r.checksum == checksum
    ensures r.path == ResourcePath(root, e) && EndsWith(r.path, e.dataName.value)
    ensures r.name == ResourceNameBy(reading, r.path)
    ensures '.' !in r.path ==> r.name == r.path
  {
    var path := ResourcePath(root, e);
    Resource(e.dataSize, path, ResourceNameBy(reading, path), checksum)
  }

  /** `PopulateResourceFromCollection`: the relative path, without a further
      leading '/', or the full collection name when that leaves nothing.
      `GetResources` never calls it: collections are not resources. */
  function CollectionResourceName(root: string, collection: string): (r: string)
    ensures !IsPrefix(root, collection) ==> r == collection
    ensures r == collection || EndsWith(collection, r)
    // The root itself: its name without the leading '/', unless that
    // leaves nothing.
    ensures root == collection && |root| > 1 && root[0] == '/' ==> r == root[1..]
    ensures root == collection && (|root| <= 1 || root[0] != '/') ==> r == collection
    // A sub-collection: the part after the root and one separator.
    ensures IsPrefix(root, collection) && |collection| > |root| + 1
            && collection[|root|] == '/' && collection[|root| + 1] != '/'
            ==> r == collection[|root| + 1..]
  {
    match RelativePath(root, collection)
    case None => collection
    case Some(relative) =>
      if |relative| > 0 && relative[0] == '/' then
        if |relative| == 1 then collection
        else
          var name := relative[1..];
          assert EndsWith(relative, name);
          assert EndsWith(collection, relative);
          name
      else
        assert EndsWith(collection, relative);
        relative
  }

  /** A sub-collection is named by its path below the root, as
      `RelativePathOfChild` gives it. */
  lemma CollectionResourceNameOfChild(root: string, sub: string)
    requires |sub| > 0 && sub[0] != '/'
    ensures CollectionResourceName(root, root + "/" + sub) == sub
  {
    var collection := root + "/" + sub;
    assert IsPrefix(root, collection);
    assert collection[|root|] == '/' && collection[|root| + 1] == sub[0];
    assert collection[|root| + 1..] == sub;
  }

  /** The package's own collection "/zone/pkg" is named "zone/pkg". */
  lemma CollectionResourceNameOfRoot()
    ensures CollectionResourceName("/zone/pkg", "/zone/pkg") == "zone/pkg"
  {
    assert "/zone/pkg"[1..] == "zone/pkg";
  }

  /** `GetResources`: one resource per data object, in the order the
      catalogue lists them; collections are skipped; an entry of any other
      kind cannot be added and ends the listing. */
  function Resources(reading: Reading, root: string, entries: seq<CollEntry>, checksum: CollEntry -> Option<string>): (r: seq<Resource>)
    requires AllListable(root, entries)
    ensures |r| <= |entries|
  {
    if |entries| == 0 then []
    else
      var e := entries[0];
      match e.objType
      case Collection => Resources(reading, root, entries[1..], checksum)
      case DataObj => [DataObjectResource(reading, root, e, checksum(e))] + Resources(reading, root, entries[1..], checksum)
      case OtherObj => []
  }

  /** Entries up to the first entry of an unknown kind contribute
      independently: listing a run of known entries followed by more entries
      is listing each part. */
  lemma {:induction false} ResourcesAppend(reading: Reading, root: string, known: seq<CollEntry>, more: seq<CollEntry>,
                                           checksum: CollEntry -> Option<string>)
    requires AllListable(root, known) && NoUnknown(known)
    requires AllListable(root, more)
    ensures AllListable(root, known + more)
    ensures Resources(reading, root, known + more, checksum) == Resources(reading, root, known, checksum) + Resources(reading, root, more, checksum)
  {
    AllListableAppend(root, known, more);
    if |known| == 0 {
      assert known + more == more;
    } else {
      var e := known[0];
      var tail := known[1..];
      assert known == [e] + tail;
      assert known + more == [e] + (tail + more);
      assert Listable(root, e) && e.objType != OtherObj;
      assert AllListable(root, tail) && NoUnknown(tail);
      AllListableAppend(root, tail, more);
      ResourcesAppend(reading, root, tail, more, checksum);
      ResourcesAppendStep(reading, root, e, tail, more, checksum);
    }
  }

  /** The inductive step of `ResourcesAppend`: a known entry in front of both
      sides. */
  lemma ResourcesAppendStep(reading: Reading, root: string, e: CollEntry, tail: seq<CollEntry>, more: seq<CollEntry>,
                            checksum: CollEntry -> Option<string>)
    requires Listable(root, e) && e.objType != OtherObj
    requires AllListable(root, tail) && AllListable(root, more) && AllListable(root, tail + more)
    requires Resources(reading, root, tail + more, checksum) == Resources(reading, root, tail, checksum) + Resources(reading, root, more, checksum)
    ensures AllListable(root, [e] + tail) && AllListable(root, [e] + (tail + more))
    ensures Resources(reading, root, [e] + (tail + more), checksum)
            == Resources(reading, root, [e] + tail, checksum) + Resources(reading, root, more, checksum)
  {
    ResourcesCons(reading, root, e, tail, checksum);
    ResourcesCons(reading, root, e, tail + more, checksum);
    ConcatRegroup(Resources(reading, root, [e], checksum), Resources(reading, root, tail, checksum),
                  Resources(reading, root, more, checksum), Resources(reading, root, tail + more, checksum),
                  Resources(reading, root, [e] + tail, checksum), Resources(reading, root, [e] + (tail + more), checksum));
  }

  /** Regrouping a concatenation: `first` in front of `rest + after` is
      `first + rest` in front of `after`. */
  lemma ConcatRegroup<T>(first: seq<T>, rest: seq<T>, after: seq<T>, both: seq<T>, x: seq<T>, y: seq<T>)
    requires both == rest + after && x == first + rest && y == first + both
    ensures y == x + after
  {
  }

  /** The first entry of a listing, when of a known kind, contributes on its
      own. */
  lemma ResourcesCons(reading: Reading, root: string, e: CollEntry, rest: seq<CollEntry>, checksum: CollEntry -> Option<string>)
    requires Listable(root, e) && e.objType != OtherObj && AllListable(root, rest)
    ensures AllListable(root, [e] + rest)
    ensures Resources(reading, root, [e] + rest, checksum) == Resources(reading, root, [e], checksum) + Resources(reading, root, rest, checksum)
  {
    var s := [e] + rest;
    assert s[0] == e && s[1..] == rest;
    assert [e][0] == e && [e][1..] == [];
    assert AllListable(root, s);
    assert Resources(reading, root, [], checksum) == [];
    match e.objType
    case Collection =>
      assert Resources(reading, root, s, checksum) == Resources(reading, root, rest, checksum);
      assert Resources(reading, root, [e], checksum) == [];
    case DataObj =>
      var d := DataObjectResource(reading, root, e, checksum(e));
      assert Resources(reading, root, s, checksum) == [d] + Resources(reading, root, rest, checksum);
      assert Resources(reading, root, [e], checksum) == [d];
  }

  /** What each kind of entry contributes on its own. */
  lemma ResourcesOfOne(reading: Reading, root: string, e: CollEntry, rest: seq<CollEntry>, checksum: CollEntry -> Option<string>)
    requires Listable(root, e) && AllListable(root, rest)
    ensures e.objType == DataObj ==> Resources(reading, root, [e], checksum) == [DataObjectResource(reading, root, e, checksum(e))]
    ensures e.objType == Collection ==> Resources(reading, root, [e], checksum) == []
    ensures e.objType == OtherObj ==> Resources(reading, root, [e] + rest, checksum) == []
  {
  }

  /** A listing with known entries only has one resource per data object. */
  lemma {:induction false} ResourcesCount(reading: Reading, root: string, entries: seq<CollEntry>, checksum: CollEntry -> Option<string>)
    requires AllListable(root, entries) && NoUnknown(entries)
    ensures |Resources(reading, root, entries, checksum)| == CountDataObjects(entries)
  {
    if |entries| > 0 {
      ResourcesCount(reading, root, entries[1..], checksum);
    }
  }

  function CountDataObjects(entries: seq<CollEntry>): nat {
    if |entries| == 0 then 0
    else (if entries[0].objType == DataObj then 1 else 0) + CountDataObjects(entries[1..])
  }
}

=== FILE: irods.dfy ===
/** The iRODS client types the module reads: the object type of a
    collection entry and the entry itself (`collEnt_t`), and the metadata
    triple (`IrodsMetadata`, meta.h). */
module Irods {
  import opened Wrappers

  /** `objType_t`: data objects, collections, and every other kind the
      catalogue may report. */
  datatype ObjType = DataObj | Collection | OtherObj

  /** One row of a collection read: data objects carry an id and a name,
      collections leave them unset. */
  datatype CollEntry = CollEntry(
    objType: ObjType,
    dataId: Option<string>,
    dataName: Option<string>,
    collName: string,
    ownerName: Option<string>,
    modifyTime: Option<string>,
    dataSize: int)

  /** An attribute-value-unit triple; the units are optional. */
  datatype IrodsMetadata = IrodsMetadata(key: string, value: string, units: Option<string>)
}

=== FILE: listing.dfy ===
/** The listing object (`IRodsObject`, listing.h) and the presentation
    helpers listing.c derives from it. `get_basename`, `ap_escape_html`,
    `ap_escape_uri`, `apr_strfsize` and `apr_ltoa` are parameters. */
module Listing {
  import opened Wrappers
  import opened Text
  import opened Irods
  import Theme
  import AprTable

  datatype IRodsObject = IRodsObject(
    objType: ObjType,
    id: Option<string>,
    data: Option<string>,
    collection: Option<string>,
    ownerName: Option<string>,
    lastModifiedTime: Option<string>,
    size: int)

  /** `SetIRodsObject`: every argument lands in its field, and the call
      always reports success (1). */
  function SetIRodsObject(objType: ObjType, id: Option<string>, data: Option<string>, collection: Option<string>,
                          ownerName: Option<string>, lastModifiedTime: Option<string>, size: int): (r: (IRodsObject, int))
    ensures r.1 == 1
    ensures r.0.objType == objType && r.0.id == id && r.0.data == data && r.0.collection == collection
    ensures r.0.ownerName == ownerName && r.0.lastModifiedTime == lastModifiedTime && r.0.size == size
  {
    (IRodsObject(objType, id, data, collection, ownerName, lastModifiedTime, size), 1)
  }

  /** `SetIRodsObjectFromCollEntry`. `idRows` is the result of the catalogue
      query for a collection's id (`None` when the query failed): the id is
      taken only from a single-row answer. Data objects keep their data id. */
  function SetIRodsObjectFromCollEntry(entry: CollEntry, idRows: Option<seq<string>>): (r: (IRodsObject, int))
    ensures r.1 == 1
    ensures entry.objType == Collection ==>
      (r.0.id.Some? <==> idRows.Some? && |idRows.value| == 1)
      && (r.0.id.Some? ==> r.0.id.value == idRows.value[0])
    ensures entry.objType != Collection ==> r.0.id == entry.dataId
    ensures r.0.objType == entry.objType && r.0.data == entry.dataName && r.0.collection == Some(entry.collName)
    ensures r.0.ownerName == entry.ownerName && r.0.lastModifiedTime == entry.modifyTime && r.0.size == entry.dataSize
  {
    var id :=
      if entry.objType == Collection then
        if idRows.Some? && |idRows.value| == 1 then Some(idRows.value[0]) else None
      else entry.dataId;
    SetIRodsObject(entry.objType, id, entry.dataName, Some(entry.collName), entry.ownerName, entry.modifyTime, entry.dataSize)
  }

  /** Reading the fields of an object back and setting them again gives the
      same object. */
  lemma SetIRodsObjectRoundTrip(obj: IRodsObject)
    ensures SetIRodsObject(obj.objType, obj.id, obj.data, obj.collection, obj.ownerName, obj.lastModifiedTime, obj.size).0 == obj
  {
  }

  /** An object set from a catalogue entry is shown under the name theme.c's
      `PrintItem` gives that entry, and only the id depends on the id query. */
  lemma SetIRodsObjectFromCollEntryShowsItemName(entry: CollEntry, idRows: Option<seq<string>>, other: Option<seq<string>>,
                                                 basename: string -> string)
    ensures DisplayName(SetIRodsObjectFromCollEntry(entry, idRows).0, basename)
            == Theme.ItemName(entry.objType, entry.dataName, entry.collName, basename)
    ensures SetIRodsObjectFromCollEntry(entry, idRows).0.(id := None) == SetIRodsObjectFromCollEntry(entry, other).0.(id := None)
  {
  }

  /** `GetIRodsObjectDisplayName`: the data name of a data object, the base
      name of a collection, nothing for other kinds. */
  function DisplayName(obj: IRodsObject, basename: string -> string): (r: Option<string>)
    ensures obj.objType == DataObj ==> r == obj.data
    ensures obj.objType == Collection ==> (r.Some? <==> obj.collection.Some?)
    ensures obj.objType == Collection && obj.collection.Some? ==> r.value == basename(obj.collection.value)
    ensures obj.objType == OtherObj ==> r.None?
  {
    match obj.objType
    case DataObj => obj.data
    case Collection => if obj.collection.Some? then Some(basename(obj.collection.value)) else None
    case OtherObj => None
  }

  /** The name `GetIRodsObjectIcon` derives its lookup key from. */
  function IconSource(obj: IRodsObject): Option<string> {
    match obj.objType
    case DataObj => obj.data
    case Collection => obj.collection
    case OtherObj => None
  }

  /** `GetIRodsObjectIcon`: the icon-map entry for the object's key, else the
      default icon of its type. */
  function ObjectIcon(obj: IRodsObject, theme: Theme.HtmlTheme, basename: string -> string): (r: Option<string>)
    ensures IconSource(obj).Some? ==> r == Theme.GetIcon(theme, obj.objType, IconSource(obj).value, basename)
    ensures IconSource(obj).None? ==> r == Theme.DefaultIcon(theme, obj.objType)
  {
    var key :=
      if theme.iconsMap.None? then None
      else match obj.objType
        case DataObj =>
          if obj.data.Some? then
            match LastIndexOf(obj.data.value, '.')
            case None => None
            case Some(i) => Some(obj.data.value[i..])
          else None
        case Collection => if obj.collection.Some? then Some(basename(obj.collection.value)) else None
        case OtherObj => None;
    var mapped := if key.Some? then AprTable.Get(theme.iconsMap.value, key.value) else None;
    if mapped.Some? then mapped else Theme.DefaultIcon(theme, obj.objType)
  }

  /** `GetIRodsObjectAltText`. */
  function AltText(obj: IRodsObject): (r: Option<string>)
    ensures r.Some? <==> obj.objType != OtherObj
    ensures obj.objType == DataObj ==> r == Some("iRods Data Object")
    ensures obj.objType == Collection ==> r == Some("iRods Collection")
  {
    match obj.objType
    case DataObj => Some("iRods Data Object")
    case Collection => Some("iRods Collection")
    case OtherObj => None
  }

  /** The name cell of theme.c's `PrintItem` and listing.c's accessors agree:
      the cell exists exactly when there are both a display name and an
      alternative text, and it shows the escaped display name (with a '/'
      after collections). */
  lemma ItemLinkMatchesDisplayName(obj: IRodsObject, basename: string -> string,
                                   escapeHtml: string -> string, escapeUri: string -> string)
    requires obj.collection.Some?
    ensures var link := Theme.ItemLink(obj.objType, obj.data, obj.collection.value, basename, escapeHtml, escapeUri);
            var name := DisplayName(obj, basename);
            && (link.Some? <==> name.Some? && AltText(obj).Some?)
            && (link.Some? ==> link.value.text == escapeHtml(name.value) + (if obj.objType == Collection then "/" else ""))
  {
  }

  /** The separator `GetIRodsObjectRelativeLink` puts between the escaped
      root and the escaped collection. */
  function Separator(root: string, relative: string): string {
    if |root| > 0 && root[|root| - 1] != '/' && (|relative| == 0 || relative[0] != '/') then "/" else ""
  }

  /** `GetIRodsObjectRelativeLink`: a link exists only for an object in a
      collection below the exposed root; it is the escaped URI root ("/" if
      that is empty), a separator, the escaped rest of the collection, "/" and
      the escaped data name, if any. */
  function RelativeLink(obj: IRodsObject, uriRoot: string, exposedRoot: Option<string>,
                        escapeHtml: string -> string, escapeUri: string -> string): (r: Option<string>)
    ensures r.Some? <==> exposedRoot.Some? && obj.collection.Some? && IsPrefix(exposedRoot.value, obj.collection.value)
    ensures r.Some? ==>
      var escapedRoot := escapeHtml(escapeUri(uriRoot));
      var root := if |escapedRoot| == 0 then "/" else escapedRoot;
      var relative := escapeHtml(escapeUri(obj.collection.value[|exposedRoot.value|..]));
      var tail := relative + "/" + (if obj.data.Some? then escapeHtml(obj.data.value) else "");
      r.value == root + Separator(escapedRoot, relative) + tail
  {
    if exposedRoot.Some? && obj.collection.Some? && IsPrefix(exposedRoot.value, obj.collection.value) then
      var escapedRoot := escapeHtml(escapeUri(uriRoot));
      var relative := escapeHtml(escapeUri(obj.collection.value[|exposedRoot.value|..]));
      var separator := Separator(escapedRoot, relative);
      var root := if |escapedRoot| == 0 then "/" else escapedRoot;
      if obj.data.Some? then
        Some(root + separator + relative + "/" + escapeHtml(obj.data.value))
      else
        Some(root + separator + relative + "/")
    else None
  }

  /** The join never loses the path separator: either the root ends in '/',
      or what follows it starts with one. The separator is added only when
      neither side has one, but nothing removes a '/' both sides bring: a
      root ending in '/' (or an empty one, which becomes "/") followed by a
      relative path starting with '/' gives "//". */
  lemma RelativeLinkJoin(root: string, relative: string)
    ensures var r := if |root| == 0 then "/" else root;
            var after := Separator(root, relative) + relative;
            r[|r| - 1] == '/' || (|after| > 0 && after[0] == '/')
    ensures Separator(root, relative) == "/" <==>
            |root| > 0 && root[|root| - 1] != '/' && (|relative| == 0 || relative[0] != '/')
    ensures var r := if |root| == 0 then "/" else root;
            var joined := r + Separator(root, relative) + relative;
            |relative| > 0 && relative[0] == '/' && r[|r| - 1] == '/' ==> joined[|r| - 1..|r| + 1] == "//"
  {
    var r := if |root| == 0 then "/" else root;
    var joined := r + Separator(root, relative) + relative;
    if |relative| > 0 && relative[0] == '/' && r[|r| - 1] == '/' {
      assert Separator(root, relative) == "";
      assert joined[|r|] == relative[0];
    }
  }

  /** With an exposed root "/zone" and a URI root "dav/", the collection
      "/zone/x" links to "dav//x/" whenever escaping leaves "dav/" and "/x"
      alone (as `ap_escape_uri` and `ap_escape_html` do). */
  lemma RelativeLinkDoublesSlash(escapeHtml: string -> string, escapeUri: string -> string)
    requires escapeUri("dav/") == "dav/" && escapeHtml("dav/") == "dav/"
    requires escapeUri("/x") == "/x" && escapeHtml("/x") == "/x"
    ensures var obj := IRodsObject(Collection, None, None, Some("/zone/x"), None, None, 0);
            RelativeLink(obj, "dav/", Some("/zone"), escapeHtml, escapeUri) == Some("dav//x/")
  {
    assert "/zone/x"[..5] == "/zone";
    assert "/zone/x"[5..] == "/x";
    assert Separator("dav/", "/x") == "";
    assert "dav/" + "" + "/x" + "/" == "dav//x/";
  }

  /** Without a data name the link names the collection itself and ends in '/'. */
  lemma CollectionLinkEndsWithSlash(obj: IRodsObject, uriRoot: string, exposedRoot: Option<string>,
                                    escapeHtml: string -> string, escapeUri: string -> string)
    requires obj.data.None?
    requires RelativeLink(obj, uriRoot, exposedRoot, escapeHtml, escapeUri).Some?
    ensures EndsWith(RelativeLink(obj, uriRoot, exposedRoot, escapeHtml, escapeUri).value, "/")
  {
  }

  /** `GetIRodsObjectSizeAsString`: only data objects have a size;
      `formatted` is what `apr_strfsize` writes, the decimal text the
      fallback. */
  function SizeAsString(obj: IRodsObject, formatted: string, decimal: string): (r: Option<string>)
    ensures r.Some? <==> obj.objType == DataObj
    ensures r.Some? && formatted != "" ==> r.value == formatted
    ensures r.Some? && formatted == "" ==> r.value == decimal
  {
    if obj.objType == DataObj then Some(if formatted != "" then formatted else decimal) else None
  }

  /** theme.c's size cell shows exactly listing.c's size string, and is empty
      when there is none. */
  lemma SizeCellMatchesSizeAsString(obj: IRodsObject, formatted: string, decimal: string)
    ensures var size := SizeAsString(obj, formatted, decimal);
            Theme.SizeCell(obj.objType, formatted, decimal)
            == if size.Some? then "<td class=\"size\">" + size.value + "B</td>" else "<td class=\"size\"></td>"
  {
  }
}

=== FILE: reading.dfy ===
/** Where the C code and the behaviour its comments and messages describe
    part ways, the operations concerned take the reading to follow: the code
    as written, or the behaviour it evidently intends. */
module Readings {

  datatype Reading = AsWritten | Intended
}

=== FILE: text.dfy ===
/** Character and string primitives of the C library as the module uses them:
    the ASCII `<ctype.h>` classes, `strcasecmp`, `strncmp` prefix tests,
    `strrchr` and `apr_strtok`. Strings are NUL-free sequences of characters,
    so the length of a sequence is the `strlen` of the C string. */
module Text {
  import opened Wrappers

  predicate IsUpper(c: char) { 'A' <= c <= 'Z' }
  predicate IsLower(c: char) { 'a' <= c <= 'z' }
  predicate IsDigit(c: char) { '0' <= c <= '9' }
  predicate IsAlnum(c: char) { IsUpper(c) || IsLower(c) || IsDigit(c) }
  predicate IsSpace(c: char) { c == ' ' || c == '\t' || c == '\n' || c == '\r' || c as int == 11 || c as int == 12 }

  /** `tolower` in the C locale. */
  function Lower(c: char): (r: char)
    ensures IsUpper(c) ==> IsLower(r)
    ensures !IsUpper(c) ==> r == c
  {
    if IsUpper(c) then (c as int + 32) as char else c
  }

  function LowerAll(s: string): (r: string)
    ensures |r| == |s|
    ensures forall i :: 0 <= i < |s| ==> r[i] == Lower(s[i])
  {
    if |s| == 0 then [] else [Lower(s[0])] + LowerAll(s[1..])
  }

  /** `strcasecmp(a, b) == 0`. */
  predicate EqualsIgnoreCase(a: string, b: string) {
    LowerAll(a) == LowerAll(b)
  }

  /** The sign of `strcasecmp(a, b)`: the two strings are compared character
      by character after `tolower`, and a proper prefix sorts first. */
  function CompareIgnoreCase(a: string, b: string): (r: int)
    ensures -1 <= r <= 1
    decreases |a|
  {
    if |a| == 0 && |b| == 0 then 0
    else if |a| == 0 then -1
    else if |b| == 0 then 1
    else if Lower(a[0]) < Lower(b[0]) then -1
    else if Lower(b[0]) < Lower(a[0]) then 1
    else CompareIgnoreCase(a[1..], b[1..])
  }

  /** `strcasecmp` reports equality exactly for strings equal up to case. */
  lemma {:induction false} CompareIgnoreCaseZero(a: string, b: string)
    ensures CompareIgnoreCase(a, b) == 0 <==> EqualsIgnoreCase(a, b)
    decreases |a|
  {
    if |a| > 0 && |b| > 0 {
      CompareIgnoreCaseZero(a[1..], b[1..]);
      assert LowerAll(a) == [Lower(a[0])] + LowerAll(a[1..]);
      assert LowerAll(b) == [Lower(b[0])] + LowerAll(b[1..]);
      if LowerAll(a) == LowerAll(b) {
        assert LowerAll(a)[1..] == LowerAll(a[1..]);
        assert LowerAll(b)[1..] == LowerAll(b[1..]);
      }
    }
  }

  /** Swapping the operands of `strcasecmp` flips the sign. */
  lemma {:induction false} CompareIgnoreCaseAntisymmetric(a: string, b: string)
    ensures CompareIgnoreCase(a, b) == -CompareIgnoreCase(b, a)
    decreases |a|
  {
    if |a| > 0 && |b| > 0 && Lower(a[0]) == Lower(b[0]) {
      CompareIgnoreCaseAntisymmetric(a[1..], b[1..]);
    }
  }

  /** The order `strcasecmp` induces is transitive. */
  lemma {:induction false} CompareIgnoreCaseTransitive(a: string, b: string, c: string)
    requires CompareIgnoreCase(a, b) <= 0 && CompareIgnoreCase(b, c) <= 0
    ensures CompareIgnoreCase(a, c) <= 0
    decreases |a|
  {
    if |a| > 0 && |b| > 0 && |c| > 0 && Lower(a[0]) == Lower(b[0]) && Lower(b[0]) == Lower(c[0]) {
      CompareIgnoreCaseTransitive(a[1..], b[1..], c[1..]);
    }
  }

  /** A strict step in the `strcasecmp` order stays strict through a
      non-strict one. */
  lemma {:induction false} CompareIgnoreCaseStrict(a: string, b: string, c: string)
    requires (CompareIgnoreCase(a, b) < 0 && CompareIgnoreCase(b, c) <= 0)
          || (CompareIgnoreCase(a, b) <= 0 && CompareIgnoreCase(b, c) < 0)
    ensures CompareIgnoreCase(a, c) < 0
    decreases |a|
  {
    if |a| > 0 && |b| > 0 && |c| > 0 && Lower(a[0]) == Lower(b[0]) && Lower(b[0]) == Lower(c[0]) {
      CompareIgnoreCaseStrict(a[1..], b[1..], c[1..]);
    }
  }

  /** `strncmp(p, s, strlen(p)) == 0`: `p` is a prefix of `s`. */
  predicate IsPrefix(p: string, s: string) {
    |p| <= |s| && s[..|p|] == p
  }

  predicate EndsWith(s: string, suffix: string) {
    |suffix| <= |s| && s[|s| - |suffix|..] == suffix
  }

  /** `strrchr(s, c)`: the index of the last occurrence of `c`, if any. */
  function LastIndexOf(s: string, c: char): (r: Option<nat>)
    ensures r.None? <==> c !in s
    ensures r.Some? ==> r.value < |s| && s[r.value] == c && c !in s[r.value + 1..]
  {
    if |s| == 0 then None
    else if s[|s| - 1] == c then Some(|s| - 1)
    else
      var r := LastIndexOf(s[..|s| - 1], c);
      assert s == s[..|s| - 1] + [s[|s| - 1]];
      r
  }

  /** A position of `c` with no `c` after it is the one `LastIndexOf` finds. */
  lemma LastIndexOfIs(s: string, c: char, k: nat)
    requires k < |s| && s[k] == c && c !in s[k + 1..]
    ensures LastIndexOf(s, c) == Some(k)
  {
    assert s[k] in s;
  }

  /** The length of the longest prefix of `s` that does not contain `sep`. */
  function SpanNot(s: string, sep: char): (n: nat)
    ensures n <= |s|
    ensures sep !in s[..n]
    ensures n < |s| ==> s[n] == sep
  {
    if |s| == 0 || s[0] == sep then 0
    else
      var n := 1 + SpanNot(s[1..], sep);
      assert s[..n] == [s[0]] + s[1..][..n - 1];
      n
  }

  /** The tokens `apr_strtok(s, sep)` returns, in order: maximal runs of
      characters other than `sep`; empty tokens are never produced. */
  function Tokens(s: string, sep: char): (ts: seq<string>)
    ensures forall i :: 0 <= i < |ts| ==> |ts[i]| > 0 && sep !in ts[i]
    decreases |s|
  {
    if |s| == 0 then []
    else if s[0] == sep then Tokens(s[1..], sep)
    else
      var n := SpanNot(s, sep);
      [s[..n]] + Tokens(s[n..], sep)
  }

  /** The inverse of `Tokens`: the tokens written out with one separator
      between neighbours. */
  function Join(ts: seq<string>, sep: char): string {
    if |ts| == 0 then []
    else if |ts| == 1 then ts[0]
    else ts[0] + [sep] + Join(ts[1..], sep)
  }

  lemma {:induction false} SpanNotOfJoin(t: string, sep: char, rest: string)
    requires sep !in t
    requires |rest| == 0 || rest[0] == sep
    ensures SpanNot(t + rest, sep) == |t|
    decreases |t|
  {
    if |t| > 0 {
      assert (t + rest)[0] == t[0] && t[0] != sep;
      assert (t + rest)[1..] == t[1..] + rest;
      assert sep !in t[1..] by { assert forall k :: 0 <= k < |t[1..]| ==> t[1..][k] == t[k + 1]; }
      SpanNotOfJoin(t[1..], sep, rest);
    } else {
      assert t + rest == rest;
    }
  }

  /** Tokenising a separator-joined list of non-empty, separator-free tokens
      gives the list back. */
  lemma {:induction false} TokensOfJoin(ts: seq<string>, sep: char)
    requires forall i :: 0 <= i < |ts| ==> |ts[i]| > 0 && sep !in ts[i]
    ensures Tokens(Join(ts, sep), sep) == ts
    decreases |ts|
  {
    if |ts| == 1 {
      SpanNotOfJoin(ts[0], sep, []);
      assert ts[0] + [] == ts[0];
      assert ts[0][|ts[0]|..] == [];
    } else if |ts| > 1 {
      var s := Join(ts, sep);
      var rest := [sep] + Join(ts[1..], sep);
      assert s == ts[0] + rest;
      SpanNotOfJoin(ts[0], sep, rest);
      assert s[..|ts[0]|] == ts[0];
      assert s[|ts[0]|..] == rest;
      assert rest[1..] == Join(ts[1..], sep);
      TokensOfJoin(ts[1..], sep);
    }
  }
}

=== FILE: theme.dfy ===
/** The presentation rules of the themed collection listing (theme.c): the
    theme settings, the ordering and rendering of metadata, icon choice and
    the cells of one listing row. Output streaming is not modelled; each
    rule produces the text it would append. */
module Theme {
  import opened Wrappers
  import opened Text
  import opened Irods
  import AprTable
  import opened Readings

  /** How metadata is shown in a listing (`MD_NONE`, `MD_FULL`,
      `MD_ON_DEMAND`); only `MdNone` switches the metadata column off. */
  datatype MetadataDisplay = MdNone | MdFull | MdOnDemand

  /** The theme fields the C files read and write. theme.h is older than
      them; the metadata switch is one field here although theme.c and
      config.c spell it differently, and the data-package key names that
      frictionless_data_package.c reads are included. */
  datatype HtmlTheme = HtmlTheme(
    head: Option<string>,
    top: Option<string>,
    bottom: Option<string>,
    collectionIcon: Option<string>,
    objectIcon: Option<string>,
    parentIcon: Option<string>,
    listingClass: Option<string>,
    showMetadata: MetadataDisplay,
    restApi: Option<string>,
    showIds: int,
    iconsMap: Option<AprTable.Table<string>>,
    showFdDataPackages: int,
    fdLicenseNameKey: Option<string>,
    fdLicenseUrlKey: Option<string>,
    fdNameKey: Option<string>,
    fdDescriptionKey: Option<string>,
    fdAuthorsKey: Option<string>,
    fdTitleKey: Option<string>,
    fdIdKey: Option<string>)

  /** `InitHtmlTheme`: nothing configured. */
  const InitialTheme := HtmlTheme(None, None, None, None, None, None, None, MdNone, None, 0, None,
                                  0, None, None, None, None, None, None, None)

  // ---------------------------------------------------------------------
  // Ordering of metadata

  /** `CompareIrodsMetadata`: keys compared ignoring case, ties broken by the
      values compared ignoring case. The result is a sign. */
  function CompareMetadata(a: IrodsMetadata, b: IrodsMetadata): (r: int)
    ensures -1 <= r <= 1
  {
    var k := CompareIgnoreCase(a.key, b.key);
    if k == 0 then CompareIgnoreCase(a.value, b.value) else k
  }

  /** The metadata order is lexicographic: by key ignoring case, then by
      value ignoring case; entries are equivalent when both agree up to case. */
  lemma CompareMetadataMeaning(a: IrodsMetadata, b: IrodsMetadata)
    ensures CompareMetadata(a, b) < 0 <==>
              CompareIgnoreCase(a.key, b.key) < 0
              || (EqualsIgnoreCase(a.key, b.key) && CompareIgnoreCase(a.value, b.value) < 0)
    ensures CompareMetadata(a, b) == 0 <==> EqualsIgnoreCase(a.key, b.key) && EqualsIgnoreCase(a.value, b.value)
  {
    CompareIgnoreCaseZero(a.key, b.key);
    CompareIgnoreCaseZero(a.value, b.value);
  }

  lemma CompareMetadataAntisymmetric(a: IrodsMetadata, b: IrodsMetadata)
    ensures CompareMetadata(a, b) == -CompareMetadata(b, a)
  {
    CompareIgnoreCaseAntisymmetric(a.key, b.key);
    CompareIgnoreCaseAntisymmetric(a.value, b.value);
  }

  lemma CompareMetadataTransitive(a: IrodsMetadata, b: IrodsMetadata, c: IrodsMetadata)
    requires CompareMetadata(a, b) <= 0 && CompareMetadata(b, c) <= 0
    ensures CompareMetadata(a, c) <= 0
  {
    var kab := CompareIgnoreCase(a.key, b.key);
    var kbc := CompareIgnoreCase(b.key, c.key);
    CompareIgnoreCaseZero(a.key, b.key);
    CompareIgnoreCaseZero(b.key, c.key);
    CompareIgnoreCaseZero(a.key, c.key);
    if kab < 0 || kbc < 0 {
      CompareIgnoreCaseStrict(a.key, b.key, c.key);
    } else {
      CompareIgnoreCaseTransitive(a.key, b.key, c.key);
      CompareIgnoreCaseAntisymmetric(a.key, b.key);
      CompareIgnoreCaseAntisymmetric(b.key, c.key);
      CompareIgnoreCaseTransitive(c.key, b.key, a.key);
      CompareIgnoreCaseAntisymmetric(a.key, c.key);
      CompareIgnoreCaseTransitive(a.value, b.value, c.value);
    }
  }

  ghost predicate Sorted(ms: seq<IrodsMetadata>) {
    forall i, j :: 0 <= i < j < |ms| ==> CompareMetadata(ms[i], ms[j]) <= 0
  }

  lemma PrependSorted(x: IrodsMetadata, s: seq<IrodsMetadata>)
    requires Sorted(s)
    requires forall y :: y in multiset(s) ==> CompareMetadata(x, y) <= 0
    ensures Sorted([x] + s)
  {
    var r := [x] + s;
    forall i, j | 0 <= i < j < |r| ensures CompareMetadata(r[i], r[j]) <= 0 {
      if i == 0 {
        assert r[j] == s[j - 1] && r[j] in multiset(s);
      } else {
        assert r[i] == s[i - 1] && r[j] == s[j - 1];
      }
    }
  }

  lemma LeastOfSorted(x: IrodsMetadata, s: seq<IrodsMetadata>)
    requires Sorted(s) && |s| > 0 && CompareMetadata(x, s[0]) <= 0
    ensures forall y :: y in multiset(s) ==> CompareMetadata(x, y) <= 0
  {
    forall y | y in multiset(s) ensures CompareMetadata(x, y) <= 0 {
      var j :| 0 <= j < |s| && s[j] == y;
      if j > 0 { CompareMetadataTransitive(x, s[0], s[j]); }
    }
  }

  function InsertSorted(x: IrodsMetadata, s: seq<IrodsMetadata>): (r: seq<IrodsMetadata>)
    requires Sorted(s)
    ensures multiset(r) == multiset(s) + multiset{x}
    ensures Sorted(r)
  {
    if |s| == 0 then [x]
    else if CompareMetadata(x, s[0]) <= 0 then
      LeastOfSorted(x, s);
      PrependSorted(x, s);
      [x] + s
    else
      var tail := InsertSorted(x, s[1..]);
      HeadStaysLeast(x, s, tail);
      PrependSorted(s[0], tail);
      [s[0]] + tail
  }

  /** When `x` sorts after the head of `s`, that head is still least once
      `x` joins the rest of `s`. */
  lemma HeadStaysLeast(x: IrodsMetadata, s: seq<IrodsMetadata>, tail: seq<IrodsMetadata>)
    requires Sorted(s) && |s| > 0 && CompareMetadata(x, s[0]) > 0
    requires multiset(tail) == multiset(s[1..]) + multiset{x}
    ensures forall y :: y in multiset(tail) ==> CompareMetadata(s[0], y) <= 0
    ensures multiset([s[0]] + tail) == multiset(s) + multiset{x}
  {
    CompareMetadataAntisymmetric(x, s[0]);
    CompareMetadataAntisymmetric(s[0], s[0]);
    LeastOfSorted(s[0], s);
    assert s == [s[0]] + s[1..];
    assert multiset(s) == multiset{s[0]} + multiset(s[1..]);
  }

  /** The `qsort` with `CompareIrodsMetadata` in `GetAndAddMetadata`: a
      permutation of the entries in non-decreasing order. `qsort` may order
      equivalent entries either way; the model keeps their input order. */
  function SortMetadata(ms: seq<IrodsMetadata>): (r: seq<IrodsMetadata>)
    ensures multiset(r) == multiset(ms)
    ensures |r| == |ms|
    ensures Sorted(r)
  {
    if |ms| == 0 then []
    else
      assert ms == [ms[0]] + ms[1..];
      InsertSorted(ms[0], SortMetadata(ms[1..]))
  }

  // ---------------------------------------------------------------------
  // Rendering of metadata

  const ListOpen := "<ul class=\"metadata\">"
  const ListClose := "</ul>"
  const KeyOpen := "<li><span class=\"key\">"
  const KeyClose := "</span>: <span class=\"value\">"
  const SpanClose := "</span>"
  const UnitsOpen := "<span class=\"units\">"
  const ItemClose := "</li>"

  /** One `<li>` of `PrintMetadata` followed by `rest`; the units span
      appears only when there are units. */
  function RenderItem(m: IrodsMetadata, rest: string): string {
    KeyOpen + (m.key + (KeyClose + (m.value + (SpanClose +
      (if m.units.Some? then UnitsOpen + (m.units.value + (SpanClose + (ItemClose + rest)))
       else ItemClose + rest)))))
  }

  /** The items of `ms`, in order, followed by `close`. */
  function RenderItems(ms: seq<IrodsMetadata>, close: string): string {
    if |ms| == 0 then close else RenderItem(ms[0], RenderItems(ms[1..], close))
  }

  /** `PrintMetadata`: the list of entries, in the order given. */
  function PrintMetadata(ms: seq<IrodsMetadata>): string {
    ListOpen + RenderItems(ms, ListClose)
  }

  /** Text without markup: the key, value and units as they are printed. */
  predicate PlainText(s: string) { '<' !in s }

  predicate PlainMetadata(m: IrodsMetadata) {
    PlainText(m.key) && PlainText(m.value) && (m.units.Some? ==> PlainText(m.units.value))
  }

  /** Reads the text up to the next tag. */
  function ReadText(s: string): (r: (string, string))
    ensures r.0 + r.1 == s && PlainText(r.0)
  {
    var n := SpanNot(s, '<');
    assert s == s[..n] + s[n..];
    (s[..n], s[n..])
  }

  function DropPrefix(p: string, s: string): string
    requires IsPrefix(p, s)
  {
    s[|p|..]
  }

  /** Reads one rendered `<li>` back into a metadata triple, and what
      follows it. */
  function ParseItem(s: string): (r: Option<(IrodsMetadata, string)>)
    ensures r.Some? ==> |r.value.1| < |s|
  {
    if IsPrefix(KeyOpen, s) then ParseKey(DropPrefix(KeyOpen, s)) else None
  }

  function ParseKey(s: string): (r: Option<(IrodsMetadata, string)>)
    ensures r.Some? ==> |r.value.1| <= |s|
  {
    var (key, s1) := ReadText(s);
    if IsPrefix(KeyClose, s1) then ParseValue(key, DropPrefix(KeyClose, s1)) else None
  }

  function ParseValue(key: string, s: string): (r: Option<(IrodsMetadata, string)>)
    ensures r.Some? ==> |r.value.1| <= |s|
  {
    var (value, s2) := ReadText(s);
    if IsPrefix(SpanClose, s2) then ParseTail(key, value, DropPrefix(SpanClose, s2)) else None
  }

  function ParseTail(key: string, value: string, s: string): (r: Option<(IrodsMetadata, string)>)
    ensures r.Some? ==> |r.value.1| <= |s|
  {
    if IsPrefix(UnitsOpen, s) then ParseUnits(key, value, DropPrefix(UnitsOpen, s))
    else if IsPrefix(ItemClose, s) then Some((IrodsMetadata(key, value, None), DropPrefix(ItemClose, s)))
    else None
  }

  function ParseUnits(key: string, value: string, s: string): (r: Option<(IrodsMetadata, string)>)
    ensures r.Some? ==> |r.value.1| <= |s|
  {
    var (units, s4) := ReadText(s);
    if IsPrefix(SpanClose, s4) && IsPrefix(ItemClose, DropPrefix(SpanClose, s4)) then
      Some((IrodsMetadata(key, value, Some(units)), DropPrefix(ItemClose, DropPrefix(SpanClose, s4))))
    else None
  }

  function ParseItems(s: string): Option<seq<IrodsMetadata>>
    decreases |s|
  {
    if s == ListClose then Some([])
    else match ParseItem(s)
      case None => None
      case Some((m, rest)) =>
        match ParseItems(rest)
        case None => None
        case Some(ms) => Some([m] + ms)
  }

  /** Reads a rendered metadata list back into its entries. */
  function ParseMetadataList(html: string): Option<seq<IrodsMetadata>> {
    if IsPrefix(ListOpen, html) then ParseItems(DropPrefix(ListOpen, html)) else None
  }

  lemma ReadTextOf(t: string, rest: string)
    requires PlainText(t) && |rest| > 0 && rest[0] == '<'
    ensures ReadText(t + rest) == (t, rest)
  {
    SpanNotOfJoin(t, '<', rest);
    assert (t + rest)[..|t|] == t;
    assert (t + rest)[|t|..] == rest;
  }

  lemma DropPrefixOf(p: string, s: string)
    ensures IsPrefix(p, p + s) && DropPrefix(p, p + s) == s
  {
    assert (p + s)[..|p|] == p;
    assert (p + s)[|p|..] == s;
  }

  lemma ParseUnitsOfRender(key: string, value: string, units: string, rest: string)
    requires PlainText(units)
    ensures ParseUnits(key, value, units + (SpanClose + (ItemClose + rest)))
            == Some((IrodsMetadata(key, value, Some(units)), rest))
  {
    ReadTextOf(units, SpanClose + (ItemClose + rest));
    DropPrefixOf(SpanClose, ItemClose + rest);
    DropPrefixOf(ItemClose, rest);
  }

  lemma ParseTailOfRender(m: IrodsMetadata, rest: string)
    requires PlainMetadata(m)
    ensures ParseTail(m.key, m.value,
              if m.units.Some? then UnitsOpen + (m.units.value + (SpanClose + (ItemClose + rest)))
              else ItemClose + rest)
            == Some((m, rest))
  {
    if m.units.Some? {
      DropPrefixOf(UnitsOpen, m.units.value + (SpanClose + (ItemClose + rest)));
      ParseUnitsOfRender(m.key, m.value, m.units.value, rest);
    } else {
      var t := ItemClose + rest;
      assert !IsPrefix(UnitsOpen, t) by { assert t[1] == '/'; }
      DropPrefixOf(ItemClose, rest);
    }
  }

  lemma ParseValueOfRender(m: IrodsMetadata, rest: string)
    requires PlainMetadata(m)
    ensures ParseValue(m.key, m.value + (SpanClose +
              (if m.units.Some? then UnitsOpen + (m.units.value + (SpanClose + (ItemClose + rest)))
               else ItemClose + rest)))
            == Some((m, rest))
  {
    var tail := if m.units.Some? then UnitsOpen + (m.units.value + (SpanClose + (ItemClose + rest)))
                else ItemClose + rest;
    ReadTextOf(m.value, SpanClose + tail);
    DropPrefixOf(SpanClose, tail);
    ParseTailOfRender(m, rest);
  }

  lemma ParseItemOfRender(m: IrodsMetadata, rest: string)
    requires PlainMetadata(m)
    ensures ParseItem(RenderItem(m, rest)) == Some((m, rest))
  {
    var tail := if m.units.Some? then UnitsOpen + (m.units.value + (SpanClose + (ItemClose + rest)))
                else ItemClose + rest;
    var s1 := KeyClose + (m.value + (SpanClose + tail));
    DropPrefixOf(KeyOpen, m.key + s1);
    ReadTextOf(m.key, s1);
    DropPrefixOf(KeyClose, m.value + (SpanClose + tail));
    ParseValueOfRender(m, rest);
  }

  lemma RenderItemIsNotClose(m: IrodsMetadata, rest: string)
    ensures RenderItem(m, rest) != ListClose
  {
    var r := RenderItem(m, rest);
    DropPrefixOf(KeyOpen, r[|KeyOpen|..]);
    assert r[1] == KeyOpen[1];
  }

  lemma {:induction false} ParseItemsOfRender(ms: seq<IrodsMetadata>)
    requires forall i :: 0 <= i < |ms| ==> PlainMetadata(ms[i])
    ensures ParseItems(RenderItems(ms, ListClose)) == Some(ms)
  {
    if |ms| > 0 {
      ParseItemsOfRender(ms[1..]);
      ParseRenderedCons(ms);
    }
  }

  /** The inductive step: a readable tail stays readable below one more
      rendered item. */
  lemma ParseRenderedCons(ms: seq<IrodsMetadata>)
    requires |ms| > 0 && PlainMetadata(ms[0])
    requires ParseItems(RenderItems(ms[1..], ListClose)) == Some(ms[1..])
    ensures ParseItems(RenderItems(ms, ListClose)) == Some(ms)
  {
    var rest := RenderItems(ms[1..], ListClose);
    var s := RenderItems(ms, ListClose);
    assert s == RenderItem(ms[0], rest);
    RenderItemIsNotClose(ms[0], rest);
    ParseItemOfRender(ms[0], rest);
    ParseItemsCons(s, ms[0], rest, ms[1..]);
    assert [ms[0]] + ms[1..] == ms;
  }

  /** One step of `ParseItems`: an item followed by a readable list. */
  lemma ParseItemsCons(s: string, m: IrodsMetadata, rest: string, ms: seq<IrodsMetadata>)
    requires s != ListClose && ParseItem(s) == Some((m, rest)) && ParseItems(rest) == Some(ms)
    ensures ParseItems(s) == Some([m] + ms)
  {
  }

  /** The rendered list is unambiguous: reading it back gives the entries, in
      order, whenever they contain no markup. */
  lemma PrintMetadataRoundTrip(ms: seq<IrodsMetadata>)
    requires forall i :: 0 <= i < |ms| ==> PlainMetadata(ms[i])
    ensures ParseMetadataList(PrintMetadata(ms)) == Some(ms)
  {
    DropPrefixOf(ListOpen, RenderItems(ms, ListClose));
    ParseItemsOfRender(ms);
  }

  lemma SortedRoundTrip(ms: seq<IrodsMetadata>)
    ensures (forall m :: m in ms ==> PlainMetadata(m)) ==>
      ParseMetadataList(PrintMetadata(SortMetadata(ms))) == Some(SortMetadata(ms))
  {
    var sorted := SortMetadata(ms);
    if forall m :: m in ms ==> PlainMetadata(m) {
      forall i | 0 <= i < |sorted| ensures PlainMetadata(sorted[i]) {
        assert sorted[i] in multiset(ms);
      }
      PrintMetadataRoundTrip(sorted);
    }
  }

  const CellOpen := "<td class=\"metadata\">"
  const CellClose := "</td>"

  /** `GetAndAddMetadata` once the metadata has been fetched (`None` for a
      failed fetch): the cell always opens and closes; a non-empty array is
      printed sorted, and only then is the status 0. */
  function MetadataCell(fetched: Option<seq<IrodsMetadata>>): (r: (string, int))
    ensures r.1 == 0 <==> fetched.Some? && |fetched.value| > 0
    ensures r.1 != 0 ==> r.1 == -1 && r.0 == CellOpen + CellClose
    ensures |r.0| >= |CellOpen| + |CellClose|
    ensures IsPrefix(CellOpen, r.0) && EndsWith(r.0, CellClose)
    ensures r.1 == 0 && (forall m :: m in fetched.value ==> PlainMetadata(m)) ==>
      var inner := r.0[|CellOpen|..|r.0| - |CellClose|];
      var shown := ParseMetadataList(inner);
      shown.Some? && multiset(shown.value) == multiset(fetched.value) && Sorted(shown.value)
  {
    if fetched.Some? && |fetched.value| > 0 then
      var sorted := SortMetadata(fetched.value);
      var html := CellOpen + PrintMetadata(sorted) + CellClose;
      assert html[..|CellOpen|] == CellOpen;
      assert html[|html| - |CellClose|..] == CellClose;
      assert html[|CellOpen|..|html| - |CellClose|] == PrintMetadata(sorted);
      SortedRoundTrip(fetched.value);
      (html, 0)
    else
      (CellOpen + CellClose, -1)
  }

  // ---------------------------------------------------------------------
  // Icons

  /** `DisplayIcons`: the icon column is shown when any icon is configured. */
  predicate DisplayIcons(theme: HtmlTheme) {
    theme.collectionIcon.Some? || theme.objectIcon.Some? || theme.iconsMap.Some?
  }

  /** The key `GetIcon` looks up: the extension (from the last '.', dot
      included) of a data object, the base name of a collection. */
  function IconKey(objType: ObjType, name: string, basename: string -> string): (r: Option<string>)
    ensures objType == DataObj ==> (r.Some? <==> '.' in name)
    ensures objType == DataObj && r.Some? ==> EndsWith(name, r.value) && |r.value| > 0 && r.value[0] == '.' && '.' !in r.value[1..]
    ensures objType == Collection ==> r == Some(basename(name))
    ensures objType == OtherObj ==> r.None?
  {
    match objType
    case DataObj =>
      (match LastIndexOf(name, '.')
       case None => None
       case Some(i) => Some(name[i..]))
    case Collection => Some(basename(name))
    case OtherObj => None
  }

  /** The default icon of a type. */
  function DefaultIcon(theme: HtmlTheme, objType: ObjType): Option<string> {
    match objType
    case DataObj => theme.objectIcon
    case Collection => theme.collectionIcon
    case OtherObj => None
  }

  /** `GetIcon`: an icon-map entry for the key wins; without one, the
      type's default icon. */
  function GetIcon(theme: HtmlTheme, objType: ObjType, name: string, basename: string -> string): (r: Option<string>)
    ensures theme.iconsMap.Some? && IconKey(objType, name, basename).Some?
            && AprTable.Get(theme.iconsMap.value, IconKey(objType, name, basename).value).Some?
            ==> r == AprTable.Get(theme.iconsMap.value, IconKey(objType, name, basename).value)
    ensures r.Some? && r != DefaultIcon(theme, objType) ==> theme.iconsMap.Some?
    ensures theme.iconsMap.None? ==> r == DefaultIcon(theme, objType)
    // A key the map does not hold, or no key at all, falls back to the
    // type's default icon.
    ensures theme.iconsMap.Some? && (IconKey(objType, name, basename).None?
            || AprTable.Get(theme.iconsMap.value, IconKey(objType, name, basename).value).None?)
            ==> r == DefaultIcon(theme, objType)
    ensures objType == OtherObj ==> r.None?
  {
    var mapped :=
      if theme.iconsMap.Some? then
        match IconKey(objType, name, basename)
        case Some(key) => AprTable.Get(theme.iconsMap.value, key)
        case None => None
      else None;
    if mapped.Some? then mapped else DefaultIcon(theme, objType)
  }

  /** Without an icon column no row ever gets an icon. */
  lemma NoIconsWithoutColumn(theme: HtmlTheme, objType: ObjType, name: string, basename: string -> string)
    requires !DisplayIcons(theme)
    ensures GetIcon(theme, objType, name, basename).None?
  {
  }

  /** A row only ever gets an icon when the header has the icon column. */
  lemma IconNeedsColumn(theme: HtmlTheme, objType: ObjType, name: string, basename: string -> string)
    ensures GetIcon(theme, objType, name, basename).Some? ==> DisplayIcons(theme)
  {
    if !DisplayIcons(theme) {
      NoIconsWithoutColumn(theme, objType, name, basename);
    }
  }

  /** Extensions are matched without regard to case. */
  lemma IconLookupIgnoresCase(theme: HtmlTheme, name: string, other: string, basename: string -> string)
    requires '.' in name && '.' in other
    requires EqualsIgnoreCase(IconKey(DataObj, name, basename).value, IconKey(DataObj, other, basename).value)
    ensures GetIcon(theme, DataObj, name, basename) == GetIcon(theme, DataObj, other, basename)
  {
  }

  // ---------------------------------------------------------------------
  // Cells of a listing row

  /** The link of the name cell. */
  datatype Link = Link(href: string, text: string)

  /** The name and alternative text `PrintItem` uses for an entry. */
  function ItemName(objType: ObjType, data: Option<string>, collection: string, basename: string -> string): Option<string> {
    match objType
    case DataObj => data
    case Collection => Some(basename(collection))
    case OtherObj => None
  }

  /** The link of `PrintItem`'s name cell: collections get a trailing '/' in
      both the address and the text, data objects do not. */
  function ItemLink(objType: ObjType, data: Option<string>, collection: string, basename: string -> string,
                    escapeHtml: string -> string, escapeUri: string -> string): (r: Option<Link>)
    ensures r.Some? <==> objType == Collection || (objType == DataObj && data.Some?)
    ensures objType == Collection ==>
      r.value.href == escapeHtml(escapeUri(basename(collection))) + "/"
      && r.value.text == escapeHtml(basename(collection)) + "/"
    ensures objType == DataObj && data.Some? ==>
      r.value.href == escapeHtml(escapeUri(data.value)) && r.value.text == escapeHtml(data.value)
  {
    match ItemName(objType, data, collection, basename)
    case None => None
    case Some(name) =>
      var suffix := if objType == Collection then "/" else "";
      Some(Link(escapeHtml(escapeUri(name)) + suffix, escapeHtml(name) + suffix))
  }

  function AltFor(objType: ObjType): string {
    if objType == DataObj then "iRods Data Object" else "iRods Collection"
  }

  /** A cell of a listing row: the class of the column it belongs to, and
      its markup. */
  datatype Cell = Cell(column: string, html: string)

  /** The columns of a row's cells, in order. */
  function Columns(cells: seq<Cell>): (r: seq<string>)
    ensures |r| == |cells|
    ensures forall i :: 0 <= i < |cells| ==> r[i] == cells[i].column
  {
    if |cells| == 0 then [] else [cells[0].column] + Columns(cells[1..])
  }

  lemma {:induction false} ColumnsAppend(a: seq<Cell>, b: seq<Cell>)
    ensures Columns(a + b) == Columns(a) + Columns(b)
  {
    if |a| > 0 {
      assert (a + b)[1..] == a[1..] + b;
      ColumnsAppend(a[1..], b);
    }
  }

  /** The columns of the icon and name cells: the icon column, if there is
      one, then the name. */
  function NameColumns(icon: bool): seq<string> {
    if icon then ["icon", "name"] else ["name"]
  }

  /** The columns after the name: size, owner, date and, if shown, the
      metadata. */
  function TrailingColumns(metadata: bool): seq<string> {
    ["size", "owner", "datestamp"] + (if metadata then ["metadata"] else [])
  }

  /** The markup of a row's cells, in order. */
  function CellsHtml(cells: seq<Cell>): string {
    if |cells| == 0 then "" else cells[0].html + CellsHtml(cells[1..])
  }

  /** The icon cell and the name cell of `PrintItem`. As written, an entry
      gets an icon cell only when it has an icon; read as intended, it gets
      one (empty when there is no icon) whenever the header has the icon
      column, and an entry without a name gets an empty name cell. */
  function NameCells(reading: Reading, theme: HtmlTheme, objType: ObjType, data: Option<string>, collection: string,
                     basename: string -> string, escapeHtml: string -> string, escapeUri: string -> string): (r: seq<Cell>)
    ensures reading == Intended ==> Columns(r) == NameColumns(DisplayIcons(theme))
    ensures reading == AsWritten && ItemName(objType, data, collection, basename).None? ==> r == []
    ensures reading == AsWritten && ItemName(objType, data, collection, basename).Some? ==>
              var icon := GetIcon(theme, objType, ItemName(objType, data, collection, basename).value, basename);
              Columns(r) == NameColumns(icon.Some?)
    ensures ItemName(objType, data, collection, basename).Some? ==>
              var link := ItemLink(objType, data, collection, basename, escapeHtml, escapeUri).value;
              r[|r| - 1] == Cell("name", "<td class=\"name\"><a href=\"" + link.href + "\">" + link.text + "</a></td>")
  {
    match ItemName(objType, data, collection, basename)
    case None =>
      if reading == AsWritten then []
      else (if DisplayIcons(theme) then [Cell("icon", "<td class=\"icon\"></td>")] else []) + [Cell("name", "<td class=\"name\"></td>")]
    case Some(name) =>
      var icon := GetIcon(theme, objType, name, basename);
      var link := ItemLink(objType, data, collection, basename, escapeHtml, escapeUri).value;
      var iconCells :=
        if icon.Some? then
          IconNeedsColumn(theme, objType, name, basename);
          [Cell("icon", "<td class=\"icon\"><img src=\"" + escapeHtml(icon.value) + "\" alt=\"" + AltFor(objType) + "\"></td>")]
        else if reading == Intended && DisplayIcons(theme) then [Cell("icon", "<td class=\"icon\"></td>")]
        else [];
      iconCells + [Cell("name", "<td class=\"name\"><a href=\"" + link.href + "\">" + link.text + "</a></td>")]
  }

  /** The size cell of `PrintItem`: `formatted` is what `apr_strfsize`
      wrote and `decimal` the plain number; only data objects show a size. */
  function SizeCell(objType: ObjType, formatted: string, decimal: string): (r: string)
    ensures IsPrefix("<td class=\"size\">", r) && EndsWith(r, "</td>")
    // The cell is empty exactly when the entry is not a data object.
    ensures r == "<td class=\"size\"></td>" <==> objType != DataObj
    // A data object's size is in bytes, the formatted size preferred.
    ensures objType == DataObj ==> EndsWith(r, "B</td>")
    ensures objType == DataObj && formatted != "" ==> IsPrefix("<td class=\"size\">" + formatted, r)
    ensures objType == DataObj && formatted == "" ==> IsPrefix("<td class=\"size\">" + decimal, r)
  {
    if objType == DataObj then
      "<td class=\"size\">" + (if formatted != "" then formatted else decimal) + "B</td>"
    else "<td class=\"size\"></td>"
  }

  /** The cells after the name: size, owner, date and, when metadata is
      shown, the metadata cell. */
  function TrailingCells(theme: HtmlTheme, entry: CollEntry, formattedSize: string, decimalSize: string,
                         dateText: string, metadata: Option<seq<IrodsMetadata>>, escapeHtml: string -> string): (r: seq<Cell>)
    ensures Columns(r) == TrailingColumns(theme.showMetadata != MdNone)
    ensures r[0] == Cell("size", SizeCell(entry.objType, formattedSize, decimalSize))
    ensures r[1].html == "<td class=\"owner\">" + escapeHtml(entry.ownerName.GetOr("")) + "</td>"
    ensures r[2].html == "<td class=\"datestamp\">" + escapeHtml(dateText) + "</td>"
    ensures theme.showMetadata != MdNone ==> r[3].html == MetadataCell(metadata).0
  {
    var fixed := [Cell("size", SizeCell(entry.objType, formattedSize, decimalSize)),
                  Cell("owner", "<td class=\"owner\">" + escapeHtml(entry.ownerName.GetOr("")) + "</td>"),
                  Cell("datestamp", "<td class=\"datestamp\">" + escapeHtml(dateText) + "</td>")];
    if theme.showMetadata != MdNone then fixed + [Cell("metadata", MetadataCell(metadata).0)] else fixed
  }

  /** The cells of one listing row (`PrintItem`), in order: the icon and
      name cells, then the trailing ones. The date text and the fetched
      metadata are inputs: formatting the time depends on the time zone and
      locale. */
  function RowCells(reading: Reading, theme: HtmlTheme, entry: CollEntry, formattedSize: string, decimalSize: string,
                    dateText: string, metadata: Option<seq<IrodsMetadata>>,
                    basename: string -> string, escapeHtml: string -> string, escapeUri: string -> string): (r: seq<Cell>)
    ensures var names := NameCells(reading, theme, entry.objType, entry.dataName, entry.collName, basename, escapeHtml, escapeUri);
            Columns(r) == Columns(names) + TrailingColumns(theme.showMetadata != MdNone)
  {
    var names := NameCells(reading, theme, entry.objType, entry.dataName, entry.collName, basename, escapeHtml, escapeUri);
    var trailing := TrailingCells(theme, entry, formattedSize, decimalSize, dateText, metadata, escapeHtml);
    ColumnsAppend(names, trailing);
    names + trailing
  }

  /** One listing row (`PrintItem`): its cells inside one `<tr>` element. */
  function PrintItem(reading: Reading, theme: HtmlTheme, entry: CollEntry, formattedSize: string, decimalSize: string,
                     dateText: string, metadata: Option<seq<IrodsMetadata>>,
                     basename: string -> string, escapeHtml: string -> string, escapeUri: string -> string): (r: string)
    ensures IsPrefix(" <tr>", r) && EndsWith(r, "</tr>\n") && |r| >= 11
    ensures r[5..|r| - 6] == CellsHtml(RowCells(reading, theme, entry, formattedSize, decimalSize, dateText, metadata,
                                                 basename, escapeHtml, escapeUri))
  {
    var cells := CellsHtml(RowCells(reading, theme, entry, formattedSize, decimalSize, dateText, metadata,
                                    basename, escapeHtml, escapeUri));
    var row := " <tr>" + cells + "</tr>\n";
    assert row[..5] == " <tr>";
    assert row[|row| - 6..] == "</tr>\n";
    assert row[5..|row| - 6] == cells;
    row
  }

  // ---------------------------------------------------------------------
  // Listing header

  /** The choices `DeliverThemedDirectory` makes before the rows. */
  datatype ListingHeader = ListingHeader(
    parentLink: bool,
    parentIcon: Option<string>,
    tableClass: string,
    iconColumn: bool,
    metadataColumn: bool)

  /** The parent link is shown everywhere but at the root, the table class
      defaults to "listing", and the icon and metadata columns follow the
      theme. */
  function Header(theme: HtmlTheme, relativeUri: string): (h: ListingHeader)
    ensures h.parentLink <==> relativeUri != "/"
    ensures h.tableClass == theme.listingClass.GetOr("listing")
    ensures h.iconColumn <==> DisplayIcons(theme)
    ensures h.metadataColumn <==> theme.showMetadata != MdNone
  {
    ListingHeader(relativeUri != "/", theme.parentIcon, theme.listingClass.GetOr("listing"),
                  DisplayIcons(theme), theme.showMetadata != MdNone)
  }

  /** The columns the header row announces, in order. */
  function HeaderColumns(h: ListingHeader): (r: seq<string>)
    ensures |r| == 4 + (if h.iconColumn then 1 else 0) + (if h.metadataColumn then 1 else 0)
    ensures "name" in r && "size" in r && "owner" in r && "datestamp" in r
    ensures "icon" in r <==> h.iconColumn
    ensures "metadata" in r <==> h.metadataColumn
  {
    NameColumns(h.iconColumn) + TrailingColumns(h.metadataColumn)
  }

  /** Read as intended, every row has one cell per header column, in the
      header's order. */
  lemma PrintItemMatchesHeader(theme: HtmlTheme, relativeUri: string, entry: CollEntry, formattedSize: string,
                               decimalSize: string, dateText: string, metadata: Option<seq<IrodsMetadata>>,
                               basename: string -> string, escapeHtml: string -> string, escapeUri: string -> string)
    ensures Columns(RowCells(Intended, theme, entry, formattedSize, decimalSize, dateText, metadata, basename, escapeHtml, escapeUri))
            == HeaderColumns(Header(theme, relativeUri))
  {
  }

  /** As written, a named row lines up with the header exactly when it has
      an icon or the header has no icon column. */
  lemma PrintItemAsWrittenMatchesHeader(theme: HtmlTheme, relativeUri: string, entry: CollEntry, formattedSize: string,
                                        decimalSize: string, dateText: string, metadata: Option<seq<IrodsMetadata>>,
                                        basename: string -> string, escapeHtml: string -> string, escapeUri: string -> string)
    requires ItemName(entry.objType, entry.dataName, entry.collName, basename).Some?
    ensures var name := ItemName(entry.objType, entry.dataName, entry.collName, basename).value;
            var row := RowCells(AsWritten, theme, entry, formattedSize, decimalSize, dateText, metadata, basename, escapeHtml, escapeUri);
            Columns(row) == HeaderColumns(Header(theme, relativeUri))
            <==> GetIcon(theme, entry.objType, name, basename).Some? || !DisplayIcons(theme)
  {
    var name := ItemName(entry.objType, entry.dataName, entry.collName, basename).value;
    var icon := GetIcon(theme, entry.objType, name, basename);
    IconNeedsColumn(theme, entry.objType, name, basename);
    var row := RowCells(AsWritten, theme, entry, formattedSize, decimalSize, dateText, metadata, basename, escapeHtml, escapeUri);
    var header := HeaderColumns(Header(theme, relativeUri));
    if icon.None? && DisplayIcons(theme) {
      assert Columns(row)[0] == "name";
      assert header[0] == "icon";
    }
  }

  /** As written, a named row without an icon under a header with the icon
      column is one cell short: its name appears under the icon heading and
      every later cell shifts one column to the left. */
  lemma PrintItemAsWrittenDropsIconCell(theme: HtmlTheme, relativeUri: string, entry: CollEntry, formattedSize: string,
                                        decimalSize: string, dateText: string, metadata: Option<seq<IrodsMetadata>>,
                                        basename: string -> string, escapeHtml: string -> string, escapeUri: string -> string)
    requires ItemName(entry.objType, entry.dataName, entry.collName, basename).Some?
    requires DisplayIcons(theme)
    requires GetIcon(theme, entry.objType, ItemName(entry.objType, entry.dataName, entry.collName, basename).value, basename).None?
    ensures var row := RowCells(AsWritten, theme, entry, formattedSize, decimalSize, dateText, metadata, basename, escapeHtml, escapeUri);
            && |Columns(row)| + 1 == |HeaderColumns(Header(theme, relativeUri))|
            && Columns(row) != HeaderColumns(Header(theme, relativeUri))
  {
    PrintItemAsWrittenMatchesHeader(theme, relativeUri, entry, formattedSize, decimalSize, dateText, metadata,
                                    basename, escapeHtml, escapeUri);
  }

  /** The icon map of the example below: one entry, for ".txt". */
  function TextIconMap(): AprTable.Table<string> {
    AprTable.Set(AprTable.Empty(), ".txt", "text.png")
  }

  /** A theme whose only icon is the ".txt" entry of its icon map. */
  function TextIconTheme(): HtmlTheme {
    InitialTheme.(iconsMap := Some(TextIconMap()))
  }

  lemma TextIconMapMissesPdf()
    ensures AprTable.Get(TextIconMap(), ".pdf").None?
  {
    assert LowerAll(".pdf") == ".pdf";
    assert !EqualsIgnoreCase(".pdf", ".txt");
  }

  lemma PdfIconKey(basename: string -> string)
    ensures IconKey(DataObj, "a.pdf", basename) == Some(".pdf")
  {
    LastIndexOfIs("a.pdf", '.', 1);
    assert "a.pdf"[1..] == ".pdf";
  }

  /** That theme displays icons but has none for "a.pdf", so the row of a
      data object "a.pdf" is one cell short under it. */
  lemma TextIconThemeMissesPdf(basename: string -> string)
    ensures DisplayIcons(TextIconTheme())
    ensures GetIcon(TextIconTheme(), DataObj, "a.pdf", basename).None?
  {
    TextIconMapMissesPdf();
    PdfIconKey(basename);
    var theme := TextIconTheme();
    assert theme.iconsMap == Some(TextIconMap());
    assert theme.collectionIcon.None? && theme.objectIcon.None?;
    assert DefaultIcon(theme, DataObj).None?;
  }

  /** The row of the data object "a.pdf" under that theme is one cell
      short of the header. */
  lemma PdfRowDropsIconCell(basename: string -> string, escapeHtml: string -> string, escapeUri: string -> string)
    ensures var entry := CollEntry(DataObj, None, Some("a.pdf"), "/zone/home", None, None, 10);
            var row := RowCells(AsWritten, TextIconTheme(), entry, "10", "10", "", None, basename, escapeHtml, escapeUri);
            |Columns(row)| + 1 == |HeaderColumns(Header(TextIconTheme(), "/dav/"))|
  {
    var entry := CollEntry(DataObj, None, Some("a.pdf"), "/zone/home", None, None, 10);
    TextIconThemeMissesPdf(basename);
    PrintItemAsWrittenDropsIconCell(TextIconTheme(), "/dav/", entry, "10", "10", "", None, basename, escapeHtml, escapeUri);
  }
}

=== FILE: wrappers.dfy ===
/** The NULL results of the C code and the null/undefined values of the
    client script are modelled with this Option type. */
module Wrappers {

  datatype Option<+T> = None | Some(value: T) {

    /** The value, or `default` when there is none (the `x ? x : y` idiom). */
    function GetOr(default: T): T {
      match this
      case Some(v) => v
      case None => default
    }
  }

  /** The first present value of two (the `a ? a : b` idiom). */
  function OrElse<T>(a: Option<T>, b: Option<T>): (r: Option<T>)
    ensures a.Some? ==> r == a
    ensures a.None? ==> r == b
  {
    if a.Some? then a else b
  }
}
